=== FILE: README.md ===
# Chorus: the pure rules of data sources, workfiles, search results and views

Chorus is a Rails and Backbone application for collaborative data work. This
project models the small, self-contained rules in seven of its files as
immutable datatypes and pure functions, and proves their properties in
Dafny:

- `common.dfy` (`Common`) holds the shared vocabulary:
  - `Option` and `Result`;
  - JavaScript values and their truthiness, and how `+` renders `undefined`;
  - Rails `blank?` over the Unicode White_Space characters, and ASCII lower-casing;
  - `indexOf`-style substring search and splitting at a separator;
  - an order-keeping `Filter` with its lemmas.
- `data_source.dfy` (`DataSources`) covers the `DataSource` model:
  - the `by_type`, `unshared` and `accessible_to` scopes, with tables read as sequences and a scope read as an order-keeping filter. A table holds the rows the `SoftDelete` default scope keeps, so a soft-deleted row is never in it;
  - the account a user connects through;
  - option normalisation of the class-level `refresh` and the calls the instance `refresh` makes;
  - the queue requests of the callbacks, recorded as logged calls;
  - the field validations.
- `workfiles.dfy` (`Workfiles`) covers the workfiles controller:
  - the order clause;
  - the ordered listing, narrowed by type when asked;
  - the parameter rewrite for an "empty" workfile.
- `search_result.dfy` (`SearchResults`) covers the search result model:
  - attribute defaults;
  - the REST path and the show route, with a parser proving that the show route reads back;
  - the query parameters;
  - the shortened display name.
- `handlebars_helpers.dfy` (`TemplateHelpers`) covers the template helpers:
  - `ifAll`, `ifAny` and `ifAdmin`, modelled as the branch rendered;
  - `displayNameFromPerson` and `moreLink`;
  - the loop of `eachWithMoreLink`.
- `visualization_dialog.dfy` (`Visualization`) covers the chart dialog:
  - the file-name whitelist and the saved file name;
  - the choice between chart and empty-data warning;
  - the template context;
  - where a chart is saved as a workfile.
- `shuttle_widget.dfy` (`Shuttle`) covers the shuttle selection widget. Its markup is read as two lists of entries with `added` and `filtered_out` flags plus the displayed count, and the model gives:
  - the per-item context;
  - the toggle, add-all, remove-all and search transitions;
  - the count label and the selected ids.
- `job_task_item.dfy` (`JobTasks`) covers the job task item view:
  - the first and last flags, the action key and the icon of a task;
  - the page call each arrow makes.

`solr_reindex_later` is defined twice in `app/models/data_source.rb` (lines
46-48 and 130-132). Ruby keeps the later definition, so the model enqueues
`DataSource.reindex_data_source`.

`workfile_attributes` writes into a `dup` of the parameters. The model is
a pure function, so the parameters it is given are never changed.

## Model

| member | source | states |
|---|---|---|
| `DataSources.ByType` | app/models/data_source.rb:30-38 | "gpdb_data_source" keeps exactly the GpdbDataSource rows and "oracle_data_source" exactly the OracleDataSource rows. Any other string returns the table unchanged. The result is always an order-keeping subsequence. |
| `DataSources.ByTypeIdempotent` | app/models/data_source.rb:30-38 | Narrowing by the same entity type twice equals narrowing once. |
| `DataSources.UnsharedConditionIsNotShared` | app/models/data_source.rb:50-52 | The SQL condition `shared = false OR shared IS NULL` holds exactly when the nullable column is not `true`. |
| `DataSources.Unshared` | app/models/data_source.rb:50-52 | A row is selected iff it is in the table and not shared, and table order is kept. |
| `DataSources.AccessibleScope` | app/models/data_source.rb:54-59 | A row is selected iff it is in the table and is shared, or owned by the user, or the user holds an account on it. |
| `DataSources.AccessibleTo` | app/models/data_source.rb:61-63 | The instance check is true iff the table holds a row of the same class and id, and that row is shared, owned by the user, or held through an account. |
| `DataSources.AccessibleToIgnoresChanges` | app/models/data_source.rb:61-63 | Unsaved changes to a record's other attributes do not change whether it is accessible. |
| `DataSources.AccountForUser` | app/models/data_source.rb:94-100 | A returned account belongs to this source and to the owner (if shared) or to the user (otherwise). Nothing is returned iff no account of the source belongs to that person. |
| `DataSources.OwnerAccount` | app/models/data_source.rb:9 | A returned account belongs to this source and to its owner. Nothing is returned iff no account of the source belongs to the owner. |
| `DataSources.AccountOwnedBy` | app/models/data_source.rb:140-142 | A returned account belongs to this source and to the user. Nothing is returned iff no account of the source belongs to the user. |
| `DataSources.SharedAccountIgnoresUser` | app/models/data_source.rb:95-96 | For a shared source every user gets the same account. |
| `DataSources.ConnectableIsAccessible` | app/models/data_source.rb:54-63 | Whoever has an account to connect through can also see the source. |
| `DataSources.AccountForUserOrRaise` | app/models/data_source.rb:102-104 | Raises RecordNotFound exactly when `account_for_user` yields nothing, and otherwise returns that same account. |
| `DataSources.NormalizeRefreshOptions` | app/models/data_source.rb:111-112 | A truthy `new` becomes true or false according to whether its string form is "true". A missing or falsy `new` leaves the options as given, and no other key changes. |
| `DataSources.NormalizeRefreshOptionsIdempotent` | app/models/data_source.rb:111-112 | Normalising twice equals normalising once. |
| `DataSources.Refresh` | app/models/data_source.rb:116-124 | `refresh_databases` is always called first. With a falsy `new` it gets exactly the given options. With a truthy `new` it gets the given options plus `skip_dataset_solr_index => true` and no other key. `refresh_schemas` follows iff that flag is truthy, with the same options plus `force_index => true`. |
| `DataSources.Find` | app/models/data_source.rb:113 | Returns a row with the id, or RecordNotFound exactly when no row has it. |
| `DataSources.ClassRefresh` | app/models/data_source.rb:110-114 | Fails iff the id is absent; otherwise it is the instance refresh of the normalised options. |
| `DataSources.ClassRefreshDatabases` | app/models/data_source.rb:65-67 | Fails with RecordNotFound iff no stored row has the id; otherwise it makes exactly one `refresh_databases` call, with no options. |
| `DataSources.AfterUpdate` | app/models/data_source.rb:19 | One reindex request, for the updated record, is queued iff `shared` changed; otherwise nothing is queued. |
| `DataSources.SolrReindexLater` | app/models/data_source.rb:130-132 | Queues "DataSource.reindex_data_source" for the record's own id with no options. Of the two definitions (lines 46-48 and 130-132), the later one is in force. |
| `DataSources.EnqueueRefresh` | app/models/data_source.rb:136-138 | Queues "DataSource.refresh" for the record's own id, with `new => true` as its only option. |
| `DataSources.RefreshDatabasesLater` | app/models/data_source.rb:126-128 | Queues "DataSource.refresh_databases" for the record's own id with no options. |
| `DataSources.QueuedDatabaseRefreshRuns` | app/models/data_source.rb:65-67 | The job `refresh_databases_later` queues succeeds iff a stored row has the record's id. For a stored record it makes the single `refresh_databases` call. |
| `DataSources.CreatedSourceIsIndexed` | app/models/data_source.rb:136-138 | The refresh queued after create, handed to the class-level refresh, makes both calls, the second with `force_index` true. |
| `DataSources.Validate` | app/models/data_source.rb:14-16 | Each error is reported iff its rule is broken: a blank name or db name (empty or only Unicode whitespace), a host present with a port that does not match the integer pattern, a name over 64 characters. |
| `DataSources.ValidIffNoErrors` | app/models/data_source.rb:14-16 | There are no errors exactly when the record meets all four rules. |
| `DataSources.PortIgnoredWithoutHost` | app/models/data_source.rb:15 | Without a host the port has no effect on validation. |
| `Workfiles.WorkfileSort` | app/controllers/workfiles_controller.rb:39-45 | The clause is "lower(file_name)" iff the column is missing, blank (empty or only Unicode whitespace) or "file_name", and "updated_at" otherwise. |
| `Workfiles.BlankColumnSortsByName` | app/controllers/workfiles_controller.rb:39-45 | For every column, it orders like a missing column iff it is blank (Unicode spaces included) or "file_name"; every other column orders by "updated_at". |
| `Workfiles.Sort` | app/controllers/workfiles_controller.rb:21 | The ordered listing is a permutation of the workfiles, sorted under the clause. |
| `Workfiles.FilterKeepsSorted` | app/controllers/workfiles_controller.rb:22 | Narrowing a sorted listing leaves it sorted. |
| `Workfiles.ByType` | app/controllers/workfiles_controller.rb:22 | Each workfile of the given type is kept as often as it occurs, and every other workfile is dropped. |
| `Workfiles.Index` | app/controllers/workfiles_controller.rb:17-27 | The listing is sorted under the chosen clause. Without `file_type` it holds every workfile; with it, exactly those of that type. |
| `Workfiles.WorkfileAttributes` | app/controllers/workfiles_controller.rb:47-62 | Fails iff `workfile` is missing or not a hash (unreadable parameters), or the source is "empty" and `file_name` is not a string free of NUL and `/` (no uploaded file can be made from it). For any source but "empty" the parameters come back unchanged. For "empty", the other keys are kept and `versions_attributes` becomes exactly one entry, whose contents are a file named by `file_name`. |
| `SearchResults.Initialize` | public/js/models/search_result.js:4-11 | A falsy `entityType` or `searchIn` becomes "all", a truthy one is kept, and the query is untouched. |
| `SearchResults.InitializeIdempotent` | public/js/models/search_result.js:4-11 | Initialising twice equals initialising once. |
| `SearchResults.IsScopedToWorkspaces` | public/js/models/search_result.js:29-31 | True iff `searchIn` is strictly "my_workspaces"; an unset attribute, which renders as "undefined", never is. A scoped result has a truthy `searchIn`. |
| `SearchResults.HasSpecificEntityType` | public/js/models/search_result.js:33-35 | False for an unset type and for "all"; true for any other set type. |
| `SearchResults.InitializeKeepsScope` | public/js/models/search_result.js:4-35 | Initialisation keeps the workspace scope, and leaves a specific entity type iff a truthy one other than "all" was given. |
| `SearchResults.UrlTemplate` | public/js/models/search_result.js:13-19 | The path is "search/workspaces/" iff `searchIn` is "my_workspaces", and "search/global/" otherwise. |
| `SearchResults.ShowUrlTemplate` | public/js/models/search_result.js:21-27 | The show route lies under "search/". When scoped or type-specific, the rest is searchIn, entityType and query joined by `/`; otherwise it is the query alone. An unset attribute reads as "undefined". |
| `SearchResults.ShowUrlReadsBack` | public/js/models/search_result.js:21-27 | A scoped or type-specific route whose searchIn and entityType hold no `/` reads back as those three segments. A global route whose query holds no `/` reads back as the query alone, whatever searchIn and entityType hold. |
| `SearchResults.GlobalQueryWithSlashesLooksScoped` | public/js/models/search_result.js:21-27 | A global search for "a/b/c" and a search in "a" for type "b" with query "c" render the same route, so the route alone cannot always be read back. |
| `SearchResults.UrlParams` | public/js/models/search_result.js:37-45 | The parameters carry the query, rows 3 and page 1, and an entity type iff it is present and not "all". |
| `SearchResults.InitializedParamsOmitAll` | public/js/models/search_result.js:33-45 | After initialisation an entity type is sent iff a truthy one other than "all" was given. |
| `SearchResults.SliceEnd` | public/js/models/search_result.js:51 | The end of `slice(0, end)` is clamped to the string, and a negative end counts back from its end. |
| `SearchResults.DisplayShortName` | public/js/models/search_result.js:47-52 | A name shorter than the length (falsy lengths read as 20) is returned as is. Otherwise the result is always a prefix of the name plus "...". For a non-negative length that prefix has exactly `length` characters, and for a positive length the result has at most `length + 3` characters. A negative length drops that many characters from the end (all of them if the name is no longer) and appends "...". |
| `TemplateHelpers.AllTruthy` | public/js/helpers/handlebars_snippets.js:26 | True iff every argument is truthy. |
| `TemplateHelpers.AnyTruthy` | public/js/helpers/handlebars_snippets.js:40 | True iff some argument is truthy. |
| `TemplateHelpers.IfAll` | public/js/helpers/handlebars_snippets.js:17-31 | Throws "ifAll expects arguments" iff no condition is left. Otherwise it renders the main block iff every condition is truthy. |
| `TemplateHelpers.IfAny` | public/js/helpers/handlebars_snippets.js:33-45 | Throws "ifAny expects arguments" iff no condition is left. Otherwise it renders the main block iff some condition is truthy. |
| `TemplateHelpers.IfAnyIsDualOfIfAll` | public/js/helpers/handlebars_snippets.js:17-45 | `ifAny` renders its inverse exactly when `ifAll` over the negated conditions renders its main block. |
| `TemplateHelpers.IfAdmin` | public/js/helpers/handlebars_snippets.js:9-15 | The main block is rendered iff a user is signed in and their admin flag is truthy. |
| `TemplateHelpers.DisplayNameFromPerson` | public/js/helpers/handlebars_snippets.js:51-53 | Throws a TypeError iff the person is undefined or null. Otherwise the result starts with the first name, has a space right after it, and ends with the last name after that space; a missing name reads as "". |
| `TemplateHelpers.DisplayNameSplitsBack` | public/js/helpers/handlebars_snippets.js:51-53 | For every person whose first name holds no space, the helper succeeds and splitting its result at the first space gives back both names. |
| `TemplateHelpers.MoreLink` | public/js/helpers/handlebars_snippets.js:59-65 | Empty unless the context has more than two items; otherwise an anchor around the translation of the "more" key with count `length - 2`. |
| `TemplateHelpers.EachWithMoreLink` | public/js/helpers/handlebars_snippets.js:67-79 | A missing or empty context renders the inverse, and `max <= 0` renders "". Otherwise the first `min(length, max)` items are rendered in order, each followed by the more link. |
| `TemplateHelpers.ShortContextHasNoMoreLink` | public/js/helpers/handlebars_snippets.js:59-79 | For at most two items, the loop renders just the items in order. |
| `Visualization.SanitizeFilename` | public/js/dialogs/visualization_dialog.js:165-167 | The result is no longer than the input and holds only letters, digits, `_`, `-` and `.`. Each allowed character keeps its count and every other character is removed. |
| `Visualization.SanitizeKeepsOrder` | public/js/dialogs/visualization_dialog.js:166 | The sanitised name is a subsequence of the input. |
| `Visualization.SanitizeKeepsCleanName` | public/js/dialogs/visualization_dialog.js:166 | A name made only of allowed characters is returned unchanged. |
| `Visualization.SanitizeIdempotent` | public/js/dialogs/visualization_dialog.js:166 | Sanitising twice equals sanitising once. |
| `Visualization.SanitizeConcat` | public/js/dialogs/visualization_dialog.js:166 | Sanitising a concatenation concatenates the sanitised parts. |
| `Visualization.ChartFileName` | public/js/dialogs/visualization_dialog.js:92 | The file name ends in ".png" and holds only allowed characters. |
| `Visualization.ChartFileNameParts` | public/js/dialogs/visualization_dialog.js:92 | The file name is the sanitised name, a dash, the sanitised type and ".png". |
| `Visualization.DrawChart` | public/js/dialogs/visualization_dialog.js:48-65 | A chart is shown iff the rows are present and non-empty, and the empty-data warning iff not. A chart built earlier is kept. |
| `Visualization.IsValidData` | public/js/dialogs/visualization_dialog.js:63-65 | Missing rows and an empty row list are not valid data; any non-empty row list is. |
| `Visualization.AdditionalContext` | public/js/dialogs/visualization_dialog.js:103-111 | The filter count is 0 without filters. The chart-type key is the names key plus the type, and `hasChart` holds iff a chart was built. |
| `Visualization.DrawnChartIsReported` | public/js/dialogs/visualization_dialog.js:48-111 | A dialog without a chart reports one after drawing iff the data was valid. |
| `Visualization.SaveWorkfile` | public/js/dialogs/visualization_dialog.js:83-96 | The workfile goes to the picked workspace if one is given, else to the task's. Its source is "visualization" and its file name is the chart file name. |
| `Visualization.SaveAsWorkfile` | public/js/dialogs/visualization_dialog.js:152-163 | The workspace picker opens iff the task's workspace id is falsy; otherwise the chart is saved into that workspace. |
| `Visualization.OnWorkspaceSelected` | public/js/dialogs/visualization_dialog.js:158 | Picking a workspace saves the chart there under the chart file name. |
| `Shuttle.CollectionModelContext` | public/js/views/utilities/shuttle_widget_view.js:18-29 | `isAdded` holds iff the model's id is one of the selection's ids, and `isNonRemovable` holds iff the model is in the non-removable list. |
| `Shuttle.Render` | public/js/views/utilities/shuttle_widget_view.js:18-36 | Each model is shown once in each list with its id and name. An entry is added iff the model's id is among the selection's ids. No entry is filtered out, and the count agrees with the selected list. |
| `Shuttle.UpdateLabels` | public/js/views/utilities/shuttle_widget_view.js:80-82 | The displayed count becomes the number of added entries in the selected list, and the lists are untouched. |
| `Shuttle.MarkId` | public/js/views/utilities/shuttle_widget_view.js:47 | Exactly the entries with the id get the `added` flag; everything else is unchanged. |
| `Shuttle.ToggleAdd` | public/js/views/utilities/shuttle_widget_view.js:40-50 | In both lists the entries with the clicked id become added iff the click came from the available list. Other entries and all other fields are unchanged, and the count agrees afterwards. |
| `Shuttle.AddAll` | public/js/views/utilities/shuttle_widget_view.js:59-63 | Every entry of both lists becomes added, nothing else changes, and the count agrees. |
| `Shuttle.RemoveAll` | public/js/views/utilities/shuttle_widget_view.js:65-70 | No entry stays added, nothing else changes, and the count agrees. |
| `Shuttle.AddAllIdempotent` | public/js/views/utilities/shuttle_widget_view.js:59-63 | Adding all twice equals adding all once. |
| `Shuttle.RemoveAllIdempotent` | public/js/views/utilities/shuttle_widget_view.js:65-70 | Removing all twice equals removing all once. |
| `Shuttle.AddAllRemoveAllCounts` | public/js/views/utilities/shuttle_widget_view.js:59-70 | After add-all the count is the length of the selected list, and after remove-all it is 0. |
| `Shuttle.GetSelectedIds` | public/js/views/utilities/shuttle_widget_view.js:52-57 | The ids, in order, of exactly the added entries of the selected list. |
| `Shuttle.SelectedIdsMatchCount` | public/js/views/utilities/shuttle_widget_view.js:52-57 | When the count agrees, there are as many selected ids as the count shows. |
| `Shuttle.SearchItems` | public/js/views/utilities/shuttle_widget_view.js:72-78 | An available entry is filtered out iff its lower-cased name does not contain the lower-cased query. The selected list, the count and every other field are unchanged. |
| `Shuttle.EmptySearchShowsAll` | public/js/views/utilities/shuttle_widget_view.js:72-78 | An empty query filters nothing out, and searching changes no `added` flag. |
| `Shuttle.CountShownIsKept` | public/js/views/utilities/shuttle_widget_view.js:40-82 | Toggle, add-all, remove-all and search all leave the count in agreement. |
| `Common.IndexOfFindsSubstring` | public/js/views/utilities/shuttle_widget_view.js:75 | `indexOf(sub) >= 0` holds exactly when the substring occurs. |
| `JobTasks.Position` | app/assets/javascripts/views/job_tasks/job_task_item_view.js:18-19 | `indexOf` is -1 iff the task is absent; otherwise it is the first position holding the task. |
| `JobTasks.IconUrlForType` | app/assets/javascripts/views/job_tasks/job_task_item_view.js:23-30 | Exactly the three known actions have an icon, each its own path. |
| `JobTasks.AdditionalContext` | app/assets/javascripts/views/job_tasks/job_task_item_view.js:10-21 | Throws a TypeError iff the task belongs to no collection. Otherwise the context has checkable false and the given url. The action key is "job_task.action." plus the action ("undefined" when unset) and the icon is that of the action. `firstItem` holds iff the task is at the head. `lastItem` holds iff the collection is empty or the task's first occurrence is its last element. |
| `JobTasks.LastItemIsFinalElement` | app/assets/javascripts/views/job_tasks/job_task_item_view.js:19 | In a collection without repeats, a task in it is the last item iff it is the final element. |
| `JobTasks.SingleTaskIsFirstAndLast` | app/assets/javascripts/views/job_tasks/job_task_item_view.js:18-19 | The only task of a collection is both first and last. |
| `JobTasks.DetachedTaskOfEmptyCollectionIsLast` | app/assets/javascripts/views/job_tasks/job_task_item_view.js:18-19 | A task whose collection is an empty collection not holding it is not first but is last, since -1 equals `length - 1`. |
| `JobTasks.OnArrowClick` | app/assets/javascripts/views/job_tasks/job_task_item_view.js:5-8 | The up arrow asks the page to move this task up, and the down arrow to move it down. |

## Left out

- Soft deletion (`SoftDelete`, app/models/data_source.rb:2) is modelled only through what a table holds: the rows whose `deleted_at` is nil. `find`, the scopes and the instance check never see a deleted row. `unscoped` lookups and `deleted_at` itself are not modelled.
- DataSources.Refresh: options are keyed by name, as the class-level `refresh` passes them after `symbolize_keys`. A direct call whose hash holds the string key "new" rather than the symbol `:new` reads `options[:new]` as nil in Ruby and makes one call, where the model makes two. The write of `skip_dataset_solr_index` into the caller's own hash, which `refresh_databases` then receives as the same object, is modelled only as the options of the calls.
- Workfiles.WorkfileAttributes: a `file_name` fails when `Tempfile.new` rejects it (nil, a hash), when the uploaded file cannot re-encode it as a string (an array), when opening the file rejects it (a NUL byte), or when it names a subdirectory of the temporary directory (a `/`), which is taken not to exist. Limits the file system sets, such as the length of a name, and the temporary file itself are not modelled.
- Queue deduplication (`QC.enqueue_if_not_queued`), Solr indexing and `reindex_data_source` are external. The callbacks are modelled as the requests they log.
- The bodies of `refresh_databases` and `refresh_schemas`, together with `valid_db_credentials?`, `connect_as` and `connect_as_owner`, are database I/O. `refresh` is modelled as the calls it makes.
- `create_for_entity_type` is left out, because it looks up a class by name at run time.
- `create_data_source_created_event` and the workfile-created event are left out, because they only record events.
- `DataSourceNameValidator` (app/models/data_source.rb:17) is not part of this model, because its source is not available.
- The `create`, `destroy` and `show` controller actions are left out. So are pagination, `last_version`, authorisation and the temporary file behind an uploaded file, which is modelled by its file name only.
- `Workfile.by_type` is not part of this model. It is taken as equality on the file type.
- DataSources.Validate: reports one error per broken rule and does not model Rails' message texts or the distinction between "not a number" and "not an integer". The port is taken as its raw text before type casting.
- DataSources.NormalizeRefreshOptions: `symbolize_keys` is read as keying options by name. A hash holding both a string and a symbol form of one key is not modelled.
- Workfiles.Sort: the order is the one PostgreSQL gives `lower(file_name)` and `updated_at`, modelled with ASCII lower-casing and code-point order of names. PostgreSQL's `lower()` also folds non-ASCII letters, and its `ORDER BY` follows the database collation, so on a database such as en_US.UTF-8 "É.sql" comes before "f.sql" while the model puts it after. The database's order among rows that tie is unspecified; the model fixes one such order.
- SearchResults.DisplayShortName: lengths and slices are counted in Unicode code points, while JavaScript's `length` and `slice` count UTF-16 code units. A name with characters outside the Basic Multilingual Plane (an emoji, say) is shortened later in the model than in the browser, and the `length + 3` bound is in code points. The bound is stated for positive lengths only, because a negative length is truthy and slices from the end. Non-integer and `NaN` lengths are not modelled.
- JavaScript `toLowerCase` is modelled on ASCII letters only; other characters are left as they are.
- JobTasks.IconUrlForType: only the three own keys of the icon map are modelled. Looking up an inherited object key such as "toString" would return a function, and this is not modelled.
- Shuttle.CollectionModelContext: `_.include` on the non-removable list compares model objects by identity. The model compares models by value, so an equal copy of a non-removable model counts as non-removable.
- DataSources.AccessibleTo: a record not yet saved has no id, and ActiveRecord's `==` never matches it; such records are not modelled, since every modelled record has an id.
- JobTasks.Position: `indexOf` compares model objects by identity. The model compares tasks by value, so two equal tasks count as one object.
- The templates that render the widgets are not part of this model. The shuttle widget is taken to render one entry per model in each list.
- The visualization dialog's DOM, SVG, menu and download work is left out. So is the translation of the chart type name, which is modelled by its translation key.
- `cache_buster` and `displayTimestamp` are left out, because they read the clock.
- The page's `moveTaskUp` and `moveTaskDown` are not part of this model, and neither are the job scheduling rules. The arrows are modelled as the call they make.

=== FILE: common.dfy ===
/**
 Shared vocabulary for the Chorus rules: optional values and results,
 JavaScript truthiness, ASCII case folding, substring search and an
 order-preserving filter over sequences with its algebraic properties.
 */
module Common {

  /** A value that may be missing (Ruby `nil`, JavaScript `undefined`). */
  datatype Option<+T> = None | Some(value: T)

  /** The outcome of an operation that may raise. */
  datatype Result<+T, +E> = Ok(value: T) | Err(error: E)

  /** A JavaScript value as the template helpers and views see it.
      Objects, functions and NaN are not distinguished. */
  datatype JsValue = Undefined | Null | Bool(b: bool) | Num(n: int) | Str(s: string)

  /** JavaScript truthiness: `undefined`, `null`, `false`, `0` and `""` are falsy. */
  predicate Truthy(v: JsValue)
  {
    match v
    case Undefined => false
    case Null => false
    case Bool(b) => b
    case Num(n) => n != 0
    case Str(s) => s != ""
  }

  /** The string JavaScript's `+` produces for an optional string operand. */
  function JsConcatForm(v: Option<string>): string
  {
    match v
    case None => "undefined"
    case Some(s) => s
  }

  /** The POSIX class `[[:space:]]` that `String#blank?` matches on a UTF-8
      string: the characters with the Unicode White_Space property. */
  predicate IsSpace(c: char)
  {
    || '\t' <= c <= '\r'
    || c == ' '
    || c == '\U{0085}'
    || c == '\U{00A0}'
    || c == '\U{1680}'
    || '\U{2000}' <= c <= '\U{200A}'
    || c == '\U{2028}' || c == '\U{2029}'
    || c == '\U{202F}'
    || c == '\U{205F}'
    || c == '\U{3000}'
  }

  /** Ruby `blank?` on a string: empty or only whitespace. */
  predicate Blank(s: string)
  {
    forall i :: 0 <= i < |s| ==> IsSpace(s[i])
  }

  /** A string is blank exactly when both of its parts are, so appending
      whitespace keeps a string blank and appending anything else does not. */
  lemma BlankConcat(a: string, b: string)
    ensures Blank(a + b) <==> Blank(a) && Blank(b)
    ensures |b| == 1 ==> (Blank(a + b) <==> Blank(a) && IsSpace(b[0]))
  {
    if Blank(a + b) {
      forall i | 0 <= i < |a| ensures IsSpace(a[i]) { assert (a + b)[i] == a[i]; }
      forall i | 0 <= i < |b| ensures IsSpace(b[i]) { assert (a + b)[|a| + i] == b[i]; }
    }
  }

  /** ASCII lower-casing of one character (other characters are kept). */
  function LowerChar(c: char): (d: char)
    ensures 'A' <= c <= 'Z' ==> 'a' <= d <= 'z'
    ensures !('A' <= c <= 'Z') ==> d == c
  {
    if 'A' <= c <= 'Z' then (c as int + 32) as char else c
  }

  /** `String#toLowerCase` restricted to ASCII letters. */
  function Lower(s: string): (r: string)
    ensures |r| == |s|
    ensures forall i :: 0 <= i < |s| ==> r[i] == LowerChar(s[i])
  {
    seq(|s|, i requires 0 <= i < |s| => LowerChar(s[i]))
  }

  /** `sub` occurs in `s` at position `i`. */
  predicate OccursAt(s: string, sub: string, i: int)
  {
    0 <= i && i + |sub| <= |s| && s[i..i + |sub|] == sub
  }

  /** The declarative notion of a substring. */
  predicate Contains(s: string, sub: string)
  {
    exists i :: 0 <= i <= |s| - |sub| && OccursAt(s, sub, i)
  }

  /** `String#indexOf`: the first position at or after `from` where `sub`
      occurs, or -1. */
  function IndexOfFrom(s: string, sub: string, from: nat): (r: int)
    requires from <= |s|
    ensures r == -1 || (from <= r && OccursAt(s, sub, r))
    ensures r == -1 ==> forall i :: from <= i <= |s| - |sub| ==> !OccursAt(s, sub, i)
    ensures r != -1 ==> forall i :: from <= i < r ==> !OccursAt(s, sub, i)
    decreases |s| - from
  {
    if from + |sub| > |s| then -1
    else if s[from..from + |sub|] == sub then from
    else IndexOfFrom(s, sub, from + 1)
  }

  function IndexOf(s: string, sub: string): int
  {
    IndexOfFrom(s, sub, 0)
  }

  /** `indexOf(sub) >= 0` is exactly the substring relation. */
  lemma IndexOfFindsSubstring(s: string, sub: string)
    ensures IndexOf(s, sub) >= 0 <==> Contains(s, sub)
  {
    if IndexOf(s, sub) >= 0 {
      assert OccursAt(s, sub, IndexOf(s, sub));
    }
  }

  /** The empty string occurs everywhere. */
  lemma EmptyIsContained(s: string)
    ensures Contains(s, "")
  {
    assert OccursAt(s, "", 0);
  }

  /** `s` does not hold the character `c`. */
  predicate Lacks(s: string, c: char)
  {
    forall i :: 0 <= i < |s| ==> s[i] != c
  }

  /** Splits `s` at the first `sep`: the text before it and the text after. */
  function SplitAtFirst(s: string, sep: char): Option<(string, string)>
  {
    var i := IndexOf(s, [sep]);
    if 0 <= i < |s| then Some((s[..i], s[i + 1..])) else None
  }

  lemma {:induction false} LacksHasNoIndex(s: string, c: char)
    requires Lacks(s, c)
    ensures IndexOf(s, [c]) == -1
    ensures SplitAtFirst(s, c) == None
  {
    forall j | 0 <= j && j + 1 <= |s| ensures !OccursAt(s, [c], j) {
      assert s[j..j + 1][0] == s[j];
    }
  }

  /** Joining two parts with a separator the first part lacks splits back
      into the two parts. */
  lemma {:induction false} SplitAtFirstSeparator(a: string, sep: char, b: string)
    requires Lacks(a, sep)
    ensures SplitAtFirst(a + [sep] + b, sep) == Some((a, b))
  {
    var s := a + [sep] + b;
    assert s[|a|..|a| + 1] == [sep];
    assert OccursAt(s, [sep], |a|);
    forall j | 0 <= j < |a| ensures !OccursAt(s, [sep], j) {
      assert s[j..j + 1][0] == a[j];
    }
    assert IndexOf(s, [sep]) == |a|;
    assert s[..|a|] == a;
    assert s[|a| + 1..] == b;
  }

  /** Keeps the elements satisfying `p`, in their original order. */
  function Filter<T(!new)>(s: seq<T>, p: T -> bool): (r: seq<T>)
    ensures |r| <= |s|
    ensures forall i :: 0 <= i < |r| ==> p(r[i])
    ensures forall x :: x in r <==> x in s && p(x)
    ensures forall x :: multiset(r)[x] == if p(x) then multiset(s)[x] else 0
  {
    if s == [] then []
    else
      assert s == [s[0]] + s[1..];
      if p(s[0]) then [s[0]] + Filter(s[1..], p) else Filter(s[1..], p)
  }

  /** The first element satisfying `p` (ActiveRecord's `find_by_*`, `has_one`). */
  function First<T(!new)>(s: seq<T>, p: T -> bool): (r: Option<T>)
    ensures r.Some? ==> r.value in s && p(r.value)
    ensures r.None? <==> forall x :: x in s ==> !p(x)
  {
    if s == [] then None
    else if p(s[0]) then Some(s[0])
    else First(s[1..], p)
  }

  /** `a` can be obtained from `b` by deleting elements. */
  predicate IsSubsequence<T(==)>(a: seq<T>, b: seq<T>)
    decreases |b|
  {
    if a == [] then true
    else if b == [] then false
    else if a[0] == b[0] then IsSubsequence(a[1..], b[1..])
    else IsSubsequence(a, b[1..])
  }

  /** Putting an element in front keeps a subsequence a subsequence. */
  lemma {:induction false} SubsequenceOfTail<T(!new)>(a: seq<T>, x: T, b: seq<T>)
    requires IsSubsequence(a, b)
    ensures IsSubsequence(a, [x] + b)
    decreases |b|, 1
  {
    var xb := [x] + b;
    assert xb[1..] == b;
    if a == [] {
    } else if a[0] == x {
      assert b != [];
      if a[0] == b[0] {
        SubsequenceOfTail(a[1..], b[0], b[1..]);
        assert [b[0]] + b[1..] == b;
      } else {
        SubsequenceOfTail(a, b[0], b[1..]);
        assert [b[0]] + b[1..] == b;
        SubsequenceDropHead(a, b);
      }
    }
  }

  /** Dropping the first element of a subsequence keeps it a subsequence. */
  lemma {:induction false} SubsequenceDropHead<T(!new)>(a: seq<T>, b: seq<T>)
    requires a != [] && IsSubsequence(a, b)
    ensures IsSubsequence(a[1..], b)
    decreases |b|, 0
  {
    assert b != [];
    if a[0] == b[0] {
      SubsequenceOfTail(a[1..], b[0], b[1..]);
      assert [b[0]] + b[1..] == b;
    } else {
      SubsequenceDropHead(a, b[1..]);
      SubsequenceOfTail(a[1..], b[0], b[1..]);
      assert [b[0]] + b[1..] == b;
    }
  }

  /** A filter keeps the order of what it keeps. */
  lemma {:induction false} FilterIsSubsequence<T(!new)>(s: seq<T>, p: T -> bool)
    ensures IsSubsequence(Filter(s, p), s)
  {
    if s != [] {
      FilterIsSubsequence(s[1..], p);
      if !p(s[0]) {
        SubsequenceOfTail(Filter(s[1..], p), s[0], s[1..]);
        assert [s[0]] + s[1..] == s;
      } else {
        var r := Filter(s, p);
        assert r[0] == s[0] && r[1..] == Filter(s[1..], p);
      }
    }
  }

  /** Filtering distributes over concatenation. */
  lemma {:induction false} FilterConcat<T(!new)>(a: seq<T>, b: seq<T>, p: T -> bool)
    ensures Filter(a + b, p) == Filter(a, p) + Filter(b, p)
  {
    if a == [] {
      assert a + b == b;
    } else {
      assert (a + b)[0] == a[0];
      assert (a + b)[1..] == a[1..] + b;
      FilterConcat(a[1..], b, p);
    }
  }

  /** A sequence whose every element passes is left unchanged. */
  lemma {:induction false} FilterKeepsAll<T(!new)>(s: seq<T>, p: T -> bool)
    requires forall i :: 0 <= i < |s| ==> p(s[i])
    ensures Filter(s, p) == s
  {
    if s != [] {
      FilterKeepsAll(s[1..], p);
    }
  }

  /** Filtering twice with the same predicate is filtering once. */
  lemma FilterIdempotent<T(!new)>(s: seq<T>, p: T -> bool)
    ensures Filter(Filter(s, p), p) == Filter(s, p)
  {
    FilterKeepsAll(Filter(s, p), p);
  }
}

=== FILE: data_source.dfy ===
/**
 The pure rules of the `DataSource` model: scoping by entity type, sharing
 and accessibility, the account a user connects through, the normalisation
 of refresh options and the order of refresh calls, the queue requests its
 callbacks make, and field validation.

 Tables are sequences of records; a query scope is a filter over the table
 that keeps table order. A table holds the rows the soft-delete default
 scope keeps (those whose `deleted_at` is unset), so a deleted record is
 never found, scoped or accessible.
 */
module DataSources {
  import opened Common

  /** A Ruby value as option hashes carry it. */
  datatype RubyValue = Nil | True | False | Text(s: string) | Integer(i: int)

  /** Ruby truthiness: only `nil` and `false` are falsy. */
  predicate RubyTruthy(v: RubyValue)
  {
    !(v.Nil? || v.False?)
  }

  /** `v.to_s == "true"`. An Integer's decimal form never reads "true",
      `nil.to_s` is empty and `false.to_s` is "false". */
  predicate ToSIsTrue(v: RubyValue)
  {
    match v
    case True => true
    case Text(s) => s == "true"
    case _ => false
  }

  /** An option hash, keyed by option name. */
  type Options = map<string, RubyValue>

  /** `Hash#[]`: a missing key reads as `nil`. */
  function Get(o: Options, key: string): RubyValue
  {
    if key in o then o[key] else Nil
  }

  datatype User = User(id: nat)

  /** An `InstanceAccount`: the credentials `ownerId` holds on a data source. */
  datatype Account = Account(id: nat, ownerId: nat, dataSourceId: nat)

  /** A row of `data_sources`. `kind` is the single-table-inheritance `type`
      column, `shared` is a nullable boolean column, `host` is empty when
      absent, and `port` is the raw value before type casting. */
  datatype DataSource = DataSource(
    id: nat,
    kind: string,
    name: string,
    dbName: string,
    host: string,
    port: Option<string>,
    shared: Option<bool>,
    ownerId: nat)

  datatype Error = RecordNotFound

  /** The attribute query `shared?`: a NULL column reads as false. */
  predicate IsShared(ds: DataSource)
  {
    ds.shared == Some(true)
  }

  // ---------------------------------------------------------------- scopes

  /** `DataSource.by_type(entity_type)`. */
  function ByType(sources: seq<DataSource>, entityType: string): (r: seq<DataSource>)
    ensures entityType == "gpdb_data_source" ==>
      forall ds :: ds in r <==> ds in sources && ds.kind == "GpdbDataSource"
    ensures entityType == "oracle_data_source" ==>
      forall ds :: ds in r <==> ds in sources && ds.kind == "OracleDataSource"
    ensures entityType != "gpdb_data_source" && entityType != "oracle_data_source" ==> r == sources
    ensures IsSubsequence(r, sources)
  {
    if entityType == "gpdb_data_source" then
      FilterIsSubsequence(sources, (ds: DataSource) => ds.kind == "GpdbDataSource");
      Filter(sources, (ds: DataSource) => ds.kind == "GpdbDataSource")
    else if entityType == "oracle_data_source" then
      FilterIsSubsequence(sources, (ds: DataSource) => ds.kind == "OracleDataSource");
      Filter(sources, (ds: DataSource) => ds.kind == "OracleDataSource")
    else
      FilterKeepsAll(sources, (ds: DataSource) => true);
      FilterIsSubsequence(sources, (ds: DataSource) => true);
      sources
  }

  /** Narrowing by type twice is narrowing once. */
  lemma ByTypeIdempotent(sources: seq<DataSource>, entityType: string)
    ensures ByType(ByType(sources, entityType), entityType) == ByType(sources, entityType)
  {
    if entityType == "gpdb_data_source" {
      FilterIdempotent(sources, (ds: DataSource) => ds.kind == "GpdbDataSource");
    } else if entityType == "oracle_data_source" {
      FilterIdempotent(sources, (ds: DataSource) => ds.kind == "OracleDataSource");
    }
  }

  /** The SQL condition `shared = false OR shared IS NULL`. */
  predicate UnsharedCondition(ds: DataSource)
  {
    ds.shared == Some(false) || ds.shared == None
  }

  /** The nullable column has three states; the SQL condition picks the two
      that are not `true`. */
  lemma UnsharedConditionIsNotShared(ds: DataSource)
    ensures UnsharedCondition(ds) <==> !IsShared(ds)
  {
    if ds.shared.Some? {
      if ds.shared.value {
        assert ds.shared == Some(true);
      } else {
        assert ds.shared == Some(false);
      }
    }
  }

  /** `DataSource.unshared`: the SQL condition `shared = false OR shared IS NULL`. */
  function Unshared(sources: seq<DataSource>): (r: seq<DataSource>)
    ensures forall ds :: ds in r <==> ds in sources && !IsShared(ds)
    ensures IsSubsequence(r, sources)
  {
    forall ds: DataSource ensures UnsharedCondition(ds) <==> !IsShared(ds) {
      UnsharedConditionIsNotShared(ds);
    }
    FilterIsSubsequence(sources, UnsharedCondition);
    Filter(sources, UnsharedCondition)
  }

  /** `user.instance_accounts.pluck(:data_source_id)`. */
  function MembershipIds(user: User, accounts: seq<Account>): set<nat>
  {
    set a | a in accounts && a.ownerId == user.id :: a.dataSourceId
  }

  /** The user holds an account on the data source. */
  predicate HoldsAccount(user: User, ds: DataSource, accounts: seq<Account>)
  {
    exists a :: a in accounts && a.ownerId == user.id && a.dataSourceId == ds.id
  }

  /** The SQL condition of `DataSource.accessible_to(user)`. */
  predicate AccessibleCondition(ds: DataSource, user: User, ids: set<nat>)
  {
    ds.shared == Some(true) || ds.ownerId == user.id || ds.id in ids
  }

  /** `DataSource.accessible_to(user)`: shared, owned, or with an account. */
  function AccessibleScope(sources: seq<DataSource>, user: User, accounts: seq<Account>): (r: seq<DataSource>)
    ensures forall ds :: ds in r <==>
      ds in sources && (IsShared(ds) || ds.ownerId == user.id || HoldsAccount(user, ds, accounts))
    ensures IsSubsequence(r, sources)
  {
    var ids := MembershipIds(user, accounts);
    assert forall ds: DataSource :: ds.id in ids <==> HoldsAccount(user, ds, accounts) by {
      forall ds: DataSource
        ensures ds.id in ids <==> HoldsAccount(user, ds, accounts)
      {
        if HoldsAccount(user, ds, accounts) {
          var a :| a in accounts && a.ownerId == user.id && a.dataSourceId == ds.id;
          assert a.dataSourceId in ids;
        }
      }
    }
    FilterIsSubsequence(sources, (ds: DataSource) => AccessibleCondition(ds, user, ids));
    Filter(sources, (ds: DataSource) => AccessibleCondition(ds, user, ids))
  }

  /** ActiveRecord's `==` on records: the same class (the `type` column)
      and the same id, whatever the other attributes hold. */
  predicate SameRecord(a: DataSource, b: DataSource)
  {
    a.kind == b.kind && a.id == b.id
  }

  /** The instance method `accessible_to(user)`: `include?` on the scope,
      which matches the stored row of the same class and id. */
  function AccessibleTo(ds: DataSource, user: User, sources: seq<DataSource>, accounts: seq<Account>): (r: bool)
    ensures r <==> exists row :: (row in sources && SameRecord(row, ds)
                                  && (IsShared(row) || row.ownerId == user.id || HoldsAccount(user, row, accounts)))
  {
    exists row :: row in AccessibleScope(sources, user, accounts) && SameRecord(row, ds)
  }

  /** Unsaved changes to a loaded record do not change whether it is
      accessible: only its class and id are looked up. */
  lemma AccessibleToIgnoresChanges(ds: DataSource, changed: DataSource, user: User,
                                   sources: seq<DataSource>, accounts: seq<Account>)
    requires SameRecord(ds, changed)
    ensures AccessibleTo(changed, user, sources, accounts) == AccessibleTo(ds, user, sources, accounts)
  {
  }

  // -------------------------------------------------------------- accounts

  /** `owner_account`: the source's account held by its owner. */
  function OwnerAccount(ds: DataSource, accounts: seq<Account>): (r: Option<Account>)
    ensures r.Some? ==> r.value in accounts && r.value.dataSourceId == ds.id && r.value.ownerId == ds.ownerId
    ensures r.None? <==> forall a :: a in accounts && a.dataSourceId == ds.id ==> a.ownerId != ds.ownerId
  {
    First(accounts, (a: Account) => a.dataSourceId == ds.id && a.ownerId == ds.ownerId)
  }

  /** `account_owned_by(user)`: the source's account held by `user`. */
  function AccountOwnedBy(ds: DataSource, user: User, accounts: seq<Account>): (r: Option<Account>)
    ensures r.Some? ==> r.value in accounts && r.value.dataSourceId == ds.id && r.value.ownerId == user.id
    ensures r.None? <==> forall a :: a in accounts && a.dataSourceId == ds.id ==> a.ownerId != user.id
  {
    First(accounts, (a: Account) => a.dataSourceId == ds.id && a.ownerId == user.id)
  }

  /** Whose account a user connects through: the owner's for a shared source,
      the user's own otherwise. */
  function Connector(ds: DataSource, user: User): nat
  {
    if IsShared(ds) then ds.ownerId else user.id
  }

  /** `account_for_user(user)`. */
  function AccountForUser(ds: DataSource, user: User, accounts: seq<Account>): (r: Option<Account>)
    ensures r.Some? ==> r.value in accounts && r.value.dataSourceId == ds.id
    ensures r.Some? ==> r.value.ownerId == Connector(ds, user)
    ensures r.None? <==>
      forall a :: a in accounts && a.dataSourceId == ds.id ==> a.ownerId != Connector(ds, user)
  {
    if IsShared(ds) then OwnerAccount(ds, accounts) else AccountOwnedBy(ds, user, accounts)
  }

  /** `account_for_user!(user)`: raises exactly when there is no account. */
  function AccountForUserOrRaise(ds: DataSource, user: User, accounts: seq<Account>): (r: Result<Account, Error>)
    ensures r.Err? <==> AccountForUser(ds, user, accounts).None?
    ensures r.Ok? ==> AccountForUser(ds, user, accounts) == Some(r.value)
    ensures r.Err? ==> r.error == RecordNotFound
  {
    match AccountForUser(ds, user, accounts)
    case Some(a) => Ok(a)
    case None => Err(RecordNotFound)
  }

  /** For a shared source every user connects through the same account. */
  lemma SharedAccountIgnoresUser(ds: DataSource, u1: User, u2: User, accounts: seq<Account>)
    requires IsShared(ds)
    ensures AccountForUser(ds, u1, accounts) == AccountForUser(ds, u2, accounts)
  {
  }

  /** Anyone who has an account to connect through can also see the source. */
  lemma {:induction false} ConnectableIsAccessible(ds: DataSource, user: User, sources: seq<DataSource>, accounts: seq<Account>)
    requires ds in sources
    requires AccountForUser(ds, user, accounts).Some?
    ensures AccessibleTo(ds, user, sources, accounts)
  {
    if !IsShared(ds) {
      var a := AccountForUser(ds, user, accounts).value;
      assert a in accounts && a.ownerId == user.id && a.dataSourceId == ds.id;
    }
  }

  // --------------------------------------------------------------- refresh

  /** The option normalisation of the class method `DataSource.refresh`: a
      truthy `:new` becomes the boolean "its string form is `true`". */
  function NormalizeRefreshOptions(o: Options): (r: Options)
    ensures r.Keys == o.Keys
    ensures forall k :: k in o && k != "new" ==> r[k] == o[k]
    ensures RubyTruthy(Get(o, "new")) ==> r["new"] == (if ToSIsTrue(o["new"]) then True else False)
    ensures !RubyTruthy(Get(o, "new")) ==> r == o
  {
    if "new" in o && RubyTruthy(o["new"]) then
      o["new" := if ToSIsTrue(o["new"]) then True else False]
    else o
  }

  /** Normalising already normalised options changes nothing. */
  lemma NormalizeRefreshOptionsIdempotent(o: Options)
    ensures NormalizeRefreshOptions(NormalizeRefreshOptions(o)) == NormalizeRefreshOptions(o)
  {
  }

  /** A call the refresh makes into the database layer. */
  datatype Call = RefreshDatabases(options: Options) | RefreshSchemas(options: Options)

  /** The instance method `refresh(options)`, as the calls it makes. */
  function Refresh(o: Options): (calls: seq<Call>)
    ensures 1 <= |calls| <= 2
    ensures calls[0].RefreshDatabases?
    ensures forall k :: k in o && k != "skip_dataset_solr_index" ==>
      k in calls[0].options && calls[0].options[k] == o[k]
    ensures calls[0].options.Keys
      == o.Keys + (if RubyTruthy(Get(o, "new")) then {"skip_dataset_solr_index"} else {})
    ensures RubyTruthy(Get(o, "new")) ==> calls[0].options["skip_dataset_solr_index"] == True
    ensures !RubyTruthy(Get(o, "new")) ==> calls[0].options == o
    ensures |calls| == 2 <==>
      RubyTruthy(Get(o, "new")) || RubyTruthy(Get(o, "skip_dataset_solr_index"))
    ensures |calls| == 2 ==>
      calls[1].RefreshSchemas? && calls[1].options == calls[0].options["force_index" := True]
  {
    var opts := if RubyTruthy(Get(o, "new")) then o["skip_dataset_solr_index" := True] else o;
    [RefreshDatabases(opts)]
      + if RubyTruthy(Get(opts, "skip_dataset_solr_index"))
        then [RefreshSchemas(opts["force_index" := True])]
        else []
  }

  function Find(sources: seq<DataSource>, id: nat): (r: Result<DataSource, Error>)
    ensures r.Ok? ==> r.value in sources && r.value.id == id
    ensures r.Err? <==> forall ds :: ds in sources ==> ds.id != id
  {
    match First(sources, (ds: DataSource) => ds.id == id)
    case Some(ds) => Ok(ds)
    case None => Err(RecordNotFound)
  }

  /** The class method `DataSource.refresh(id, options)`. */
  function ClassRefresh(sources: seq<DataSource>, id: nat, o: Options): (r: Result<seq<Call>, Error>)
    ensures r.Err? <==> forall ds :: ds in sources ==> ds.id != id
    ensures r.Ok? ==> r.value == Refresh(NormalizeRefreshOptions(o))
  {
    match Find(sources, id)
    case Ok(_) => Ok(Refresh(NormalizeRefreshOptions(o)))
    case Err(e) => Err(e)
  }

  // ------------------------------------------------------- queue callbacks

  /** A background-queue request, recorded by method name and arguments. */
  datatype QueueCall = Enqueue(job: string, id: nat, options: Options)

  /** `solr_reindex_later`. Of its two definitions the later one is in force. */
  function SolrReindexLater(ds: DataSource): (q: QueueCall)
    ensures q.job == "DataSource.reindex_data_source" && q.id == ds.id && q.options == map[]
  {
    Enqueue("DataSource.reindex_data_source", ds.id, map[])
  }

  /** The `after_update` callback: reindex when `shared` changed. */
  function AfterUpdate(before: DataSource, after: DataSource): (r: seq<QueueCall>)
    ensures |r| <= 1
    ensures |r| == 1 <==> before.shared != after.shared
    ensures |r| == 1 ==> r[0].job == "DataSource.reindex_data_source" && r[0].id == after.id
  {
    if before.shared != after.shared then [SolrReindexLater(after)] else []
  }

  /** `enqueue_refresh`, run after create. */
  function EnqueueRefresh(ds: DataSource): (q: QueueCall)
    ensures q.job == "DataSource.refresh" && q.id == ds.id
    ensures q.options == map["new" := True]
  {
    Enqueue("DataSource.refresh", ds.id, map["new" := True])
  }

  /** `refresh_databases_later`. */
  function RefreshDatabasesLater(ds: DataSource): (q: QueueCall)
    ensures q.job == "DataSource.refresh_databases" && q.id == ds.id && q.options == map[]
  {
    Enqueue("DataSource.refresh_databases", ds.id, map[])
  }

  /** The class method `DataSource.refresh_databases(id)`: the stored
      record's `refresh_databases` with no options. */
  function ClassRefreshDatabases(sources: seq<DataSource>, id: nat): (r: Result<seq<Call>, Error>)
    ensures r.Err? <==> forall ds :: ds in sources ==> ds.id != id
    ensures r.Err? ==> r.error == RecordNotFound
    ensures r.Ok? ==> |r.value| == 1 && r.value[0].RefreshDatabases? && r.value[0].options == map[]
  {
    match Find(sources, id)
    case Ok(_) => Ok([RefreshDatabases(map[])])
    case Err(e) => Err(e)
  }

  /** The job `refresh_databases_later` queues refreshes the databases of
      a stored record, and nothing else, while a record no longer stored
      makes it fail. */
  lemma QueuedDatabaseRefreshRuns(sources: seq<DataSource>, ds: DataSource)
    ensures var q := RefreshDatabasesLater(ds);
      ClassRefreshDatabases(sources, q.id).Ok? <==> exists row :: row in sources && row.id == ds.id
    ensures ds in sources ==>
      ClassRefreshDatabases(sources, RefreshDatabasesLater(ds).id) == Ok([RefreshDatabases(map[])])
  {
  }

  /** The refresh queued at creation refreshes the databases and then
      indexes all schemas. */
  lemma CreatedSourceIsIndexed(sources: seq<DataSource>, ds: DataSource)
    requires ds in sources
    ensures var q := EnqueueRefresh(ds);
      var r := ClassRefresh(sources, q.id, q.options);
      r.Ok? && |r.value| == 2 && r.value[1].RefreshSchemas?
      && Get(r.value[1].options, "force_index") == True
  {
  }

  // ------------------------------------------------------------ validation

  datatype FieldError = NameBlank | DbNameBlank | PortNotInteger | NameTooLong

  predicate IsDigit(c: char)
  {
    '0' <= c <= '9'
  }

  /** One or more digits. */
  predicate AllDigits(s: string)
  {
    |s| > 0 && forall i :: 0 <= i < |s| ==> IsDigit(s[i])
  }

  /** The integer pattern of `validates_numericality_of ... :only_integer`:
      an optional sign, digits, and `\Z`, which admits one final newline. */
  predicate IsIntegerText(s: string)
  {
    var body := if |s| > 0 && s[|s| - 1] == '\n' then s[..|s| - 1] else s;
    var digits := if |body| > 0 && (body[0] == '+' || body[0] == '-') then body[1..] else body;
    AllDigits(digits)
  }

  /** The declared validations, in declaration order. */
  function Validate(ds: DataSource): (errors: seq<FieldError>)
    ensures NameBlank in errors <==> Blank(ds.name)
    ensures DbNameBlank in errors <==> Blank(ds.dbName)
    ensures PortNotInteger in errors <==>
      !Blank(ds.host) && !(ds.port.Some? && IsIntegerText(ds.port.value))
    ensures NameTooLong in errors <==> |ds.name| > 64
    ensures |errors| <= 4
  {
    (if Blank(ds.name) then [NameBlank] else [])
    + (if Blank(ds.dbName) then [DbNameBlank] else [])
    + (if !Blank(ds.host) then
         match ds.port
         case Some(p) => if IsIntegerText(p) then [] else [PortNotInteger]
         case None => [PortNotInteger]
       else [])
    + (if |ds.name| > 64 then [NameTooLong] else [])
  }

  /** A record passes validation when named, with a database name, a name
      of at most 64 characters, and an integer port if a host is given. */
  predicate Valid(ds: DataSource)
  {
    && !Blank(ds.name) && !Blank(ds.dbName) && |ds.name| <= 64
    && (!Blank(ds.host) ==> ds.port.Some? && IsIntegerText(ds.port.value))
  }

  lemma ValidIffNoErrors(ds: DataSource)
    ensures Validate(ds) == [] <==> Valid(ds)
  {
    if Validate(ds) == [] {
      assert NameBlank !in Validate(ds);
    }
  }

  /** Without a host the port is not checked at all. */
  lemma PortIgnoredWithoutHost(ds: DataSource, port: Option<string>)
    requires Blank(ds.host)
    ensures Validate(ds.(port := port)) == Validate(ds)
  {
  }
}

=== FILE: handlebars_helpers.dfy ===
/**
 The Handlebars helpers of the client: the `ifAll`/`ifAny` block
 combinators, `ifAdmin`, a person's display name, the "more" link of an
 activity list and the bounded iteration that places it.

 A block helper's output is represented by which of its two blocks it
 renders; what the block itself renders belongs to the template.
 */
module TemplateHelpers {
  import opened Common

  /** The block a block helper renders: the main one or the inverse. */
  datatype Branch = MainBlock | ElseBlock

  /** `_.all(args, _.identity)`. */
  function AllTruthy(args: seq<JsValue>): (r: bool)
    ensures r <==> forall i :: 0 <= i < |args| ==> Truthy(args[i])
  {
    if args == [] then true else Truthy(args[0]) && AllTruthy(args[1..])
  }

  /** `_.any(args)`. */
  function AnyTruthy(args: seq<JsValue>): (r: bool)
    ensures r <==> exists i :: 0 <= i < |args| && Truthy(args[i])
  {
    if args == [] then false else Truthy(args[0]) || AnyTruthy(args[1..])
  }

  /** `ifAll`. `conditions` are the arguments left after the block and the
      inverse, the two functions Handlebars appends, have been popped. */
  function IfAll(conditions: seq<JsValue>): (r: Result<Branch, string>)
    ensures r.Err? <==> |conditions| == 0
    ensures r.Err? ==> r.error == "ifAll expects arguments"
    ensures r == Ok(MainBlock) <==>
      |conditions| > 0 && forall i :: 0 <= i < |conditions| ==> Truthy(conditions[i])
  {
    if |conditions| == 0 then Err("ifAll expects arguments")
    else if AllTruthy(conditions) then Ok(MainBlock)
    else Ok(ElseBlock)
  }

  /** `ifAny`, with the same argument split as `ifAll`. */
  function IfAny(conditions: seq<JsValue>): (r: Result<Branch, string>)
    ensures r.Err? <==> |conditions| == 0
    ensures r.Err? ==> r.error == "ifAny expects arguments"
    ensures r == Ok(MainBlock) <==>
      exists i :: 0 <= i < |conditions| && Truthy(conditions[i])
  {
    if |conditions| == 0 then Err("ifAny expects arguments")
    else if AnyTruthy(conditions) then Ok(MainBlock)
    else Ok(ElseBlock)
  }

  /** Each condition replaced by the boolean of its negation. */
  function Negated(conditions: seq<JsValue>): (r: seq<JsValue>)
    ensures |r| == |conditions|
    ensures forall i :: 0 <= i < |r| ==> r[i] == Bool(!Truthy(conditions[i]))
  {
    seq(|conditions|, i requires 0 <= i < |conditions| => Bool(!Truthy(conditions[i])))
  }

  /** De Morgan for the two combinators: `ifAny` renders its inverse exactly
      when `ifAll` over the negated conditions renders its main block. */
  lemma IfAnyIsDualOfIfAll(conditions: seq<JsValue>)
    requires |conditions| > 0
    ensures IfAny(conditions) == Ok(ElseBlock) <==> IfAll(Negated(conditions)) == Ok(MainBlock)
  {
    var n := Negated(conditions);
    assert forall i :: 0 <= i < |n| ==> (Truthy(n[i]) <==> !Truthy(conditions[i]));
  }

  /** `ifAdmin`. `currentUserAdmin` is the `admin` attribute of the signed-in
      user, absent when nobody is signed in. */
  function IfAdmin(currentUserAdmin: Option<JsValue>): (r: Branch)
    ensures r == MainBlock <==> currentUserAdmin.Some? && Truthy(currentUserAdmin.value)
  {
    match currentUserAdmin
    case Some(admin) => if Truthy(admin) then MainBlock else ElseBlock
    case None => ElseBlock
  }

  /** How `Array#join` renders an element: `undefined` and `null` as "". */
  function JoinPart(v: Option<string>): string
  {
    match v
    case None => ""
    case Some(s) => s
  }

  /** The person a template passes in; `None` is `undefined` or `null`. */
  datatype Person = Person(firstName: Option<string>, lastName: Option<string>)

  /** `displayNameFromPerson`: first and last name joined by a space. Reading
      a name off a missing person throws a TypeError, named here by its type
      since the message text differs between browsers. */
  function DisplayNameFromPerson(person: Option<Person>): (r: Result<string, string>)
    ensures r.Err? <==> person.None?
    ensures r.Err? ==> r.error == "TypeError"
    ensures r.Ok? ==> var first, last := JoinPart(person.value.firstName), JoinPart(person.value.lastName);
      && |r.value| == |first| + 1 + |last|
      && r.value[..|first|] == first
      && r.value[|first|] == ' '
      && r.value[|first| + 1..] == last
  {
    match person
    case None => Err("TypeError")
    case Some(p) => Ok(JoinPart(p.firstName) + " " + JoinPart(p.lastName))
  }

  /** The display name splits back at its first space into the two names,
      when the first name holds no space. */
  lemma DisplayNameSplitsBack(person: Person)
    requires Lacks(JoinPart(person.firstName), ' ')
    ensures DisplayNameFromPerson(Some(person)).Ok?
    ensures SplitAtFirst(DisplayNameFromPerson(Some(person)).value, ' ')
      == Some((JoinPart(person.firstName), JoinPart(person.lastName)))
  {
    SplitAtFirstSeparator(JoinPart(person.firstName), ' ', JoinPart(person.lastName));
  }

  /** The translation key of the "more" link. */
  const MoreKey := "activity_stream.comments.more"

  /** The anchor around the translated "more" text. */
  function MoreAnchor(text: string): string
  {
    "<a class='more'>" + text + "</a>"
  }

  /** `moreLink(context)`: a link naming how many items beyond the first two
      there are, or "". `t` is the translation lookup. */
  function MoreLink<T>(context: Option<seq<T>>, t: (string, int) -> string): (r: string)
    ensures r == "" <==> !(context.Some? && |context.value| > 2)
    ensures r != "" ==> r == MoreAnchor(t(MoreKey, |context.value| - 2))
  {
    if context.Some? && |context.value| > 2 then MoreAnchor(t(MoreKey, |context.value| - 2))
    else ""
  }

  /** The first `k` items rendered, each followed by `link`. */
  function Rendered<T>(items: seq<T>, k: nat, fn: T -> string, link: string): string
    requires k <= |items|
  {
    if k == 0 then "" else Rendered(items, k - 1, fn, link) + fn(items[k - 1]) + link
  }

  /** The items rendered one after the other. */
  function ConcatMap<T>(items: seq<T>, fn: T -> string): string
  {
    if items == [] then "" else ConcatMap(items[..|items| - 1], fn) + fn(items[|items| - 1])
  }

  /** With an empty link, rendering is plain concatenation. */
  lemma {:induction false} RenderedWithoutLink<T>(items: seq<T>, k: nat, fn: T -> string)
    requires k <= |items|
    ensures Rendered(items, k, fn, "") == ConcatMap(items[..k], fn)
  {
    if k > 0 {
      RenderedWithoutLink(items, k - 1, fn);
      assert items[..k][..k - 1] == items[..k - 1];
    }
  }

  function Min(a: int, b: int): int
  {
    if a <= b then a else b
  }

  /** `eachWithMoreLink(context, max, fn, inverse)`: for a non-empty
      context, the first `min(length, max)` items in order, each followed by
      the "more" link; otherwise the inverse block. */
  method EachWithMoreLink<T>(context: Option<seq<T>>, max: int, fn: T -> string, inverse: string,
                             t: (string, int) -> string)
    returns (ret: string)
    ensures context.None? || |context.value| == 0 ==> ret == inverse
    ensures context.Some? && |context.value| > 0 && max <= 0 ==> ret == ""
    ensures context.Some? && |context.value| > 0 && max > 0 ==>
      ret == Rendered(context.value, Min(|context.value|, max), fn, MoreLink(context, t))
  {
    ret := "";
    if context.Some? && |context.value| > 0 {
      var items := context.value;
      var j := Min(|items|, max);
      var i := 0;
      while i < j
        invariant 0 <= i <= |items|
        invariant i <= if j < 0 then 0 else j
        invariant ret == Rendered(items, i, fn, MoreLink(context, t))
      {
        ret := ret + fn(items[i]);
        ret := ret + MoreLink(context, t);
        i := i + 1;
      }
    } else {
      ret := inverse;
    }
  }

  /** A context of at most two items is rendered without any "more" link. */
  lemma ShortContextHasNoMoreLink<T>(items: seq<T>, max: int, fn: T -> string, t: (string, int) -> string)
    requires 0 < |items| <= 2 && max > 0
    ensures Rendered(items, Min(|items|, max), fn, MoreLink(Some(items), t))
      == ConcatMap(items[..Min(|items|, max)], fn)
  {
    RenderedWithoutLink(items, Min(|items|, max), fn);
  }
}

=== FILE: job_task_item.dfy ===
/**
 One task in a job's task list: the context its template receives (the
 translation key and icon of its action, and whether it is the first or
 the last of its collection) and the page calls its arrows make.
 */
module JobTasks {
  import opened Common

  /** A job task; `action` is absent when the attribute is unset. */
  datatype JobTask = JobTask(id: nat, action: Option<string>)

  /** `collection.indexOf(task)`: the first position holding the task, or -1. */
  function Position(collection: seq<JobTask>, task: JobTask): (p: int)
    ensures -1 <= p < |collection|
    ensures p == -1 <==> task !in collection
    ensures p >= 0 ==> collection[p] == task && task !in collection[..p]
  {
    if collection == [] then -1
    else if collection[0] == task then 0
    else
      var p := Position(collection[1..], task);
      assert collection == [collection[0]] + collection[1..];
      if p == -1 then -1
      else
        assert collection[..p + 1] == [collection[0]] + collection[1..][..p];
        p + 1
  }

  /** `iconUrlForType(action)`: the icon of a known action, none otherwise. */
  function IconUrlForType(action: Option<string>): (url: Option<string>)
    ensures url.Some? <==>
      action in {Some("run_work_flow"), Some("run_sql_file"), Some("import_source_data")}
    ensures action == Some("run_work_flow") ==> url == Some("/images/jobs/afm-task.png")
    ensures action == Some("run_sql_file") ==> url == Some("/images/workfiles/icon/sql.png")
    ensures action == Some("import_source_data") ==> url == Some("/images/import_icon.png")
  {
    var iconMap := map[
      "run_work_flow" := "/images/jobs/afm-task.png",
      "run_sql_file" := "/images/workfiles/icon/sql.png",
      "import_source_data" := "/images/import_icon.png"];
    match action
    case Some(a) => if a in iconMap then Some(iconMap[a]) else None
    case None => None
  }

  /** The context `additionalContext` hands the template; the show url is
      taken as given. */
  datatype Context = Context(
    checkable: bool,
    url: string,
    actionKey: string,
    iconUrl: Option<string>,
    firstItem: bool,
    lastItem: bool)

  /** `collection.indexOf` on a task that belongs to no collection (never
      added, or removed, which unsets `model.collection`) throws. */
  datatype Error = TypeError

  /** `additionalContext`, given the task's `collection` attribute. */
  function AdditionalContext(task: JobTask, collection: Option<seq<JobTask>>, showUrl: string)
    : (r: Result<Context, Error>)
    ensures r.Err? <==> collection.None?
    ensures r.Ok? ==> var c, tasks := r.value, collection.value;
      && !c.checkable && c.url == showUrl
      && c.actionKey == "job_task.action." + JsConcatForm(task.action)
      && c.iconUrl == IconUrlForType(task.action)
      && (c.firstItem <==> |tasks| > 0 && tasks[0] == task)
      && (c.lastItem <==>
          |tasks| == 0 || (tasks[|tasks| - 1] == task && task !in tasks[..|tasks| - 1]))
  {
    match collection
    case None => Err(TypeError)
    case Some(tasks) =>
      Ok(Context(
        false,
        showUrl,
        "job_task.action." + JsConcatForm(task.action),
        IconUrlForType(task.action),
        Position(tasks, task) == 0,
        Position(tasks, task) == |tasks| - 1))
  }

  /** No task occurs twice. */
  predicate Distinct(collection: seq<JobTask>)
  {
    forall i, j :: 0 <= i < j < |collection| ==> collection[i] != collection[j]
  }

  /** In a collection without repeats, a task of the collection is marked
      last exactly when it is the final element. */
  lemma LastItemIsFinalElement(task: JobTask, collection: seq<JobTask>, showUrl: string)
    requires Distinct(collection) && task in collection
    ensures AdditionalContext(task, Some(collection), showUrl).Ok?
    ensures AdditionalContext(task, Some(collection), showUrl).value.lastItem
      <==> collection[|collection| - 1] == task
  {
  }

  /** The only task of a collection is both its first and its last item. */
  lemma SingleTaskIsFirstAndLast(task: JobTask, showUrl: string)
    ensures AdditionalContext(task, Some([task]), showUrl).Ok?
    ensures AdditionalContext(task, Some([task]), showUrl).value.firstItem
    ensures AdditionalContext(task, Some([task]), showUrl).value.lastItem
  {
  }

  /** A task whose `collection` is an empty collection that does not hold
      it still counts as that collection's last item: -1 is both "absent"
      and the last index of nothing. */
  lemma DetachedTaskOfEmptyCollectionIsLast(task: JobTask, showUrl: string)
    ensures AdditionalContext(task, Some([]), showUrl).Ok?
    ensures !AdditionalContext(task, Some([]), showUrl).value.firstItem
    ensures AdditionalContext(task, Some([]), showUrl).value.lastItem
  {
  }

  /** The arrows of a task item. */
  datatype Arrow = UpArrow | DownArrow

  /** The call an arrow makes on the page's job. */
  datatype PageCall = MoveTaskUp(task: JobTask) | MoveTaskDown(task: JobTask)

  /** The `events` map with `moveJobTaskDown`/`moveJobTaskUp`. */
  function OnArrowClick(arrow: Arrow, task: JobTask): (call: PageCall)
    ensures call.task == task
    ensures call.MoveTaskUp? <==> arrow == UpArrow
  {
    match arrow
    case DownArrow => MoveTaskDown(task)
    case UpArrow => MoveTaskUp(task)
  }
}

=== FILE: search_result.dfy ===
/**
 The client-side search result model: attribute defaults, the REST path
 it fetches from, the path it is shown at, its query parameters and the
 shortened name it is displayed with.
 */
module SearchResults {
  import opened Common

  /** The attributes the rules read; `None` is an attribute never set. */
  datatype SearchResult = SearchResult(entityType: Option<string>, searchIn: Option<string>, query: Option<string>)

  /** The attribute holds a truthy string. */
  predicate Present(a: Option<string>)
  {
    a.Some? && a.value != ""
  }

  /** `initialize`: a falsy `entityType` or `searchIn` defaults to "all". */
  function Initialize(attrs: SearchResult): (r: SearchResult)
    ensures r.query == attrs.query
    ensures Present(r.entityType) && Present(r.searchIn)
    ensures Present(attrs.entityType) ==> r.entityType == attrs.entityType
    ensures !Present(attrs.entityType) ==> r.entityType == Some("all")
    ensures Present(attrs.searchIn) ==> r.searchIn == attrs.searchIn
    ensures !Present(attrs.searchIn) ==> r.searchIn == Some("all")
  {
    var withType := if Present(attrs.entityType) then attrs else attrs.(entityType := Some("all"));
    if Present(withType.searchIn) then withType else withType.(searchIn := Some("all"))
  }

  /** Initialising an initialised result changes nothing. */
  lemma InitializeIdempotent(attrs: SearchResult)
    ensures Initialize(Initialize(attrs)) == Initialize(attrs)
  {
  }

  /** `isScopedToWorkspaces`: `searchIn` is strictly equal to "my_workspaces"
      (an unset attribute never is). */
  predicate IsScopedToWorkspaces(r: SearchResult)
    ensures IsScopedToWorkspaces(r) ==> Present(r.searchIn)
    ensures IsScopedToWorkspaces(r) <==> JsConcatForm(r.searchIn) == "my_workspaces"
  {
    r.searchIn == Some("my_workspaces")
  }

  /** `has("entityType")` (set and not null) and not "all". */
  predicate HasSpecificEntityType(r: SearchResult)
    ensures HasSpecificEntityType(r) ==> r.entityType.Some?
    ensures r.entityType == Some("all") || r.entityType.None? ==> !HasSpecificEntityType(r)
    ensures r.entityType.Some? && r.entityType.value != "all" ==> HasSpecificEntityType(r)
  {
    r.entityType.Some? && r.entityType.value != "all"
  }

  /** Initialisation keeps the workspace scope, and leaves a specific entity
      type exactly when a truthy one other than "all" was given. */
  lemma InitializeKeepsScope(attrs: SearchResult)
    ensures IsScopedToWorkspaces(Initialize(attrs)) <==> IsScopedToWorkspaces(attrs)
    ensures HasSpecificEntityType(Initialize(attrs))
      <==> Present(attrs.entityType) && attrs.entityType.value != "all"
  {
  }

  /** `urlTemplate`: the REST path searched. */
  function UrlTemplate(r: SearchResult): (u: string)
    ensures u == "search/workspaces/" <==> IsScopedToWorkspaces(r)
    ensures u == "search/global/" <==> !IsScopedToWorkspaces(r)
  {
    if IsScopedToWorkspaces(r) then "search/workspaces/" else "search/global/"
  }

  /** `showUrlTemplate`: the client route the result is shown at. */
  function ShowUrlTemplate(r: SearchResult): (u: string)
    ensures "search/" <= u
    ensures IsScopedToWorkspaces(r) || HasSpecificEntityType(r) ==>
      u[7..] == JsConcatForm(r.searchIn) + "/" + JsConcatForm(r.entityType) + "/" + JsConcatForm(r.query)
    ensures !(IsScopedToWorkspaces(r) || HasSpecificEntityType(r)) ==> u[7..] == JsConcatForm(r.query)
  {
    if IsScopedToWorkspaces(r) || HasSpecificEntityType(r) then
      "search/" + JsConcatForm(r.searchIn) + "/" + JsConcatForm(r.entityType) + "/" + JsConcatForm(r.query)
    else
      "search/" + JsConcatForm(r.query)
  }

  /** A client route under "search/", read back: three segments, or one. */
  datatype Route = Scoped(searchIn: string, entityType: string, query: string) | Global(query: string)

  /** Reads a route "search/<searchIn>/<entityType>/<query>" or
      "search/<query>" back into its segments. */
  function ParseShowUrl(u: string): Option<Route>
  {
    if !("search/" <= u) then None
    else
      var rest := u[7..];
      match SplitAtFirst(rest, '/')
      case None => Some(Global(rest))
      case Some((a, tail)) =>
        match SplitAtFirst(tail, '/')
        case None => None
        case Some((b, q)) => Some(Scoped(a, b, q))
  }

  /** The show route reads back as the attributes it was built from, as
      long as no segment but the last of a three-segment route holds a `/`
      and a one-segment route holds none at all. */
  lemma ShowUrlReadsBack(r: SearchResult)
    requires IsScopedToWorkspaces(r) || HasSpecificEntityType(r) ==>
      Lacks(JsConcatForm(r.searchIn), '/') && Lacks(JsConcatForm(r.entityType), '/')
    requires !(IsScopedToWorkspaces(r) || HasSpecificEntityType(r)) ==> Lacks(JsConcatForm(r.query), '/')
    ensures IsScopedToWorkspaces(r) || HasSpecificEntityType(r) ==>
      ParseShowUrl(ShowUrlTemplate(r))
        == Some(Scoped(JsConcatForm(r.searchIn), JsConcatForm(r.entityType), JsConcatForm(r.query)))
    ensures !(IsScopedToWorkspaces(r) || HasSpecificEntityType(r)) ==>
      ParseShowUrl(ShowUrlTemplate(r)) == Some(Global(JsConcatForm(r.query)))
  {
    var u := ShowUrlTemplate(r);
    var a, b, q := JsConcatForm(r.searchIn), JsConcatForm(r.entityType), JsConcatForm(r.query);
    if IsScopedToWorkspaces(r) || HasSpecificEntityType(r) {
      assert a + "/" + b + "/" + q == a + "/" + (b + "/" + q);
      SplitAtFirstSeparator(a, '/', b + "/" + q);
      SplitAtFirstSeparator(b, '/', q);
    } else {
      LacksHasNoIndex(q, '/');
    }
  }

  /** The route does not tell a global search for a query with two `/`
      from a search scoped to an entity type: both render the same text. */
  lemma GlobalQueryWithSlashesLooksScoped()
    ensures ShowUrlTemplate(SearchResult(Some("all"), Some("all"), Some("a/b/c")))
      == ShowUrlTemplate(SearchResult(Some("b"), Some("a"), Some("c")))
      == "search/a/b/c"
  {
    assert "search/" + "a/b/c" == "search/a/b/c";
    assert "search/" + "a" + "/" + "b" + "/" + "c" == "search/a/b/c";
  }

  /** The query parameters of the search request. */
  datatype Params = Params(query: Option<string>, rows: int, page: int, entityType: Option<string>)

  /** `urlParams`. */
  function UrlParams(r: SearchResult): (p: Params)
    ensures p.query == r.query && p.rows == 3 && p.page == 1
    ensures p.entityType.Some? <==> HasSpecificEntityType(r)
    ensures p.entityType.Some? ==> p.entityType == r.entityType
  {
    Params(r.query, 3, 1, if HasSpecificEntityType(r) then r.entityType else None)
  }

  /** After initialisation the request names an entity type exactly when
      one other than "all" was given. */
  lemma InitializedParamsOmitAll(attrs: SearchResult)
    ensures UrlParams(Initialize(attrs)).entityType.Some?
      <==> Present(attrs.entityType) && attrs.entityType.value != "all"
  {
  }

  /** `length || 20`. */
  function EffectiveLength(length: Option<int>): int
  {
    if length.None? || length == Some(0) then 20 else length.value
  }

  /** `String#slice(0, end)`: a negative end counts from the end. */
  function SliceEnd(s: string, end: int): (k: nat)
    ensures k <= |s|
    ensures 0 <= end ==> k == if end < |s| then end else |s|
    ensures end < 0 ==> k == if |s| + end < 0 then 0 else |s| + end
  {
    if end < 0 then (if |s| + end < 0 then 0 else |s| + end)
    else if end < |s| then end else |s|
  }

  /** The name `displayShortName` shortens: the query, or "" when falsy. */
  function ShortNameSource(r: SearchResult): string
  {
    if Present(r.query) then r.query.value else ""
  }

  /** `displayShortName(length)`. */
  function DisplayShortName(r: SearchResult, length: Option<int>): (d: string)
    ensures |ShortNameSource(r)| < EffectiveLength(length) ==> d == ShortNameSource(r)
    ensures |ShortNameSource(r)| >= EffectiveLength(length) ==>
      exists k :: 0 <= k <= |ShortNameSource(r)| && d == ShortNameSource(r)[..k] + "..."
    ensures |ShortNameSource(r)| >= EffectiveLength(length) >= 0 ==>
      d == ShortNameSource(r)[..EffectiveLength(length)] + "..."
    ensures EffectiveLength(length) > 0 ==> |d| <= EffectiveLength(length) + 3
    ensures EffectiveLength(length) < 0 ==>
      var name, drop := ShortNameSource(r), -EffectiveLength(length);
      d == (if |name| <= drop then "" else name[..|name| - drop]) + "..."
  {
    var name := ShortNameSource(r);
    var l := EffectiveLength(length);
    if |name| < l then name
    else
      var k := SliceEnd(name, l);
      name[..k] + "..."
  }
}

=== FILE: shuttle_widget.dfy ===
/**
 The shuttle widget: two lists of the same items, "available" and
 "selected", where an item is moved across by marking its entries
 "added". The page markup is read as two sequences of entries, each with
 the id and name it shows and its `added` and `filtered_out` classes, and
 the displayed count of selected items.
 */
module Shuttle {
  import opened Common

  /** A collection model as the widget renders it. */
  datatype Model = Model(id: string, displayName: string, imageUrl: string)

  /** The context `collectionModelContext` gives one model's template. */
  datatype ItemContext = ItemContext(
    isAdded: bool,
    displayName: string,
    imageUrl: string,
    isNonRemovable: bool,
    nonRemovableText: string)

  /** `collectionModelContext(model)`. `nonRemovable` is compared by value. */
  function CollectionModelContext(model: Model, selectionSource: seq<Model>, nonRemovable: seq<Model>,
                                  nonRemovableText: string): (c: ItemContext)
    ensures c.isAdded <==> exists s :: s in selectionSource && s.id == model.id
    ensures c.isNonRemovable <==> model in nonRemovable
    ensures c.displayName == model.displayName && c.imageUrl == model.imageUrl
    ensures c.nonRemovableText == nonRemovableText
  {
    var selections := seq(|selectionSource|, i requires 0 <= i < |selectionSource| => selectionSource[i].id);
    assert forall s :: s in selectionSource ==> s.id in selections by {
      forall s | s in selectionSource ensures s.id in selections {
        var i :| 0 <= i < |selectionSource| && selectionSource[i] == s;
        assert selections[i] == s.id;
      }
    }
    ItemContext(model.id in selections, model.displayName, model.imageUrl, model in nonRemovable, nonRemovableText)
  }

  /** One `li` of either list. */
  datatype Entry = Entry(id: string, name: string, added: bool, filteredOut: bool)

  /** The widget's markup: both lists and the text of `.selected_count`. */
  datatype Widget = Widget(available: seq<Entry>, selected: seq<Entry>, selectedCount: nat)

  /** Which list a click came from. */
  datatype ListName = Available | Selected

  /** The `added` entries of a list. */
  function AddedEntries(list: seq<Entry>): seq<Entry>
  {
    Filter(list, (e: Entry) => e.added)
  }

  /** `this.$("ul.selected li.added").length`. */
  function CountAdded(list: seq<Entry>): nat
  {
    |AddedEntries(list)|
  }

  /** The displayed count agrees with the selected list. */
  predicate CountShown(w: Widget)
  {
    w.selectedCount == CountAdded(w.selected)
  }

  /** `_updateLabels`. */
  function UpdateLabels(w: Widget): (r: Widget)
    ensures CountShown(r)
    ensures r.available == w.available && r.selected == w.selected
  {
    w.(selectedCount := CountAdded(w.selected))
  }

  /** Two lists hold the same entries up to their `added` classes. */
  predicate SameItems(a: seq<Entry>, b: seq<Entry>)
  {
    |a| == |b| && forall i :: 0 <= i < |a| ==> a[i].(added := b[i].added) == b[i]
  }

  /** The rendered widget, with each model shown once in each list. */
  function Render(collection: seq<Model>, selectionSource: seq<Model>, nonRemovable: seq<Model>): (w: Widget)
    ensures CountShown(w)
    ensures |w.available| == |collection| && |w.selected| == |collection|
    ensures forall i :: 0 <= i < |collection| ==>
      && w.available[i] == w.selected[i]
      && w.available[i].id == collection[i].id
      && w.available[i].name == collection[i].displayName
      && !w.available[i].filteredOut
      && (w.available[i].added <==> exists s :: s in selectionSource && s.id == collection[i].id)
  {
    var entries := seq(|collection|, i requires 0 <= i < |collection| =>
      Entry(collection[i].id, collection[i].displayName,
            CollectionModelContext(collection[i], selectionSource, nonRemovable, "").isAdded, false));
    UpdateLabels(Widget(entries, entries, 0))
  }

  /** Every entry with the given id gets its `added` class set to `on`. */
  function MarkId(list: seq<Entry>, id: string, on: bool): (r: seq<Entry>)
    ensures SameItems(r, list)
    ensures forall i :: 0 <= i < |list| ==>
      r[i].added == if list[i].id == id then on else list[i].added
  {
    seq(|list|, i requires 0 <= i < |list| => if list[i].id == id then list[i].(added := on) else list[i])
  }

  /** Every entry gets its `added` class set to `on`. */
  function MarkAll(list: seq<Entry>, on: bool): (r: seq<Entry>)
    ensures SameItems(r, list)
    ensures forall i :: 0 <= i < |r| ==> r[i].added == on
  {
    seq(|list|, i requires 0 <= i < |list| => list[i].(added := on))
  }

  /** `toggleAdd`: a click on the entry with id `id` in list `from` adds the
      item when it came from the available list and removes it otherwise. */
  function ToggleAdd(w: Widget, from: ListName, id: string): (r: Widget)
    ensures SameItems(r.available, w.available) && SameItems(r.selected, w.selected)
    ensures forall i :: 0 <= i < |w.available| ==>
      r.available[i].added == if w.available[i].id == id then from == Available else w.available[i].added
    ensures forall i :: 0 <= i < |w.selected| ==>
      r.selected[i].added == if w.selected[i].id == id then from == Available else w.selected[i].added
    ensures CountShown(r)
  {
    var isAdding := from == Available;
    UpdateLabels(Widget(MarkId(w.available, id, isAdding), MarkId(w.selected, id, isAdding), w.selectedCount))
  }

  /** `addAll`. */
  function AddAll(w: Widget): (r: Widget)
    ensures SameItems(r.available, w.available) && SameItems(r.selected, w.selected)
    ensures forall i :: 0 <= i < |r.available| ==> r.available[i].added
    ensures forall i :: 0 <= i < |r.selected| ==> r.selected[i].added
    ensures CountShown(r)
  {
    UpdateLabels(Widget(MarkAll(w.available, true), MarkAll(w.selected, true), w.selectedCount))
  }

  /** `removeAll`. */
  function RemoveAll(w: Widget): (r: Widget)
    ensures SameItems(r.available, w.available) && SameItems(r.selected, w.selected)
    ensures forall i :: 0 <= i < |r.available| ==> !r.available[i].added
    ensures forall i :: 0 <= i < |r.selected| ==> !r.selected[i].added
    ensures CountShown(r)
  {
    UpdateLabels(Widget(MarkAll(w.available, false), MarkAll(w.selected, false), w.selectedCount))
  }

  /** Marking every entry twice is marking once. */
  lemma MarkAllTwice(list: seq<Entry>, on: bool)
    ensures MarkAll(MarkAll(list, on), on) == MarkAll(list, on)
  {
    var once := MarkAll(list, on);
    assert forall i :: 0 <= i < |once| ==> MarkAll(once, on)[i] == once[i];
  }

  lemma AddAllIdempotent(w: Widget)
    ensures AddAll(AddAll(w)) == AddAll(w)
  {
    MarkAllTwice(w.available, true);
    MarkAllTwice(w.selected, true);
  }

  lemma RemoveAllIdempotent(w: Widget)
    ensures RemoveAll(RemoveAll(w)) == RemoveAll(w)
  {
    MarkAllTwice(w.available, false);
    MarkAllTwice(w.selected, false);
  }

  /** After `addAll` the count is the length of the selected list; after
      `removeAll` it is zero. */
  lemma {:induction false} AddAllRemoveAllCounts(w: Widget)
    ensures AddAll(w).selectedCount == |w.selected|
    ensures RemoveAll(w).selectedCount == 0
  {
    var on := AddAll(w).selected;
    FilterKeepsAll(on, (e: Entry) => e.added);
  }

  /** Extending a list by one entry extends its added entries by that entry
      exactly when it is added. */
  lemma AddedEntriesSnoc(list: seq<Entry>, e: Entry)
    ensures AddedEntries(list + [e]) == AddedEntries(list) + (if e.added then [e] else [])
  {
    FilterConcat(list, [e], (e: Entry) => e.added);
    assert Filter([e], (e: Entry) => e.added) == if e.added then [e] else [];
  }

  /** The ids of a list of entries, in order. */
  function IdsOf(list: seq<Entry>): (ids: seq<string>)
    ensures |ids| == |list|
    ensures forall k :: 0 <= k < |list| ==> ids[k] == list[k].id
  {
    seq(|list|, k requires 0 <= k < |list| => list[k].id)
  }

  /** One more entry scanned adds its id exactly when it is added. */
  lemma IdsStep(list: seq<Entry>, i: nat)
    requires i < |list|
    ensures IdsOf(AddedEntries(list[..i + 1]))
      == IdsOf(AddedEntries(list[..i])) + (if list[i].added then [list[i].id] else [])
  {
    assert list[..i + 1] == list[..i] + [list[i]];
    AddedEntriesSnoc(list[..i], list[i]);
    var before := AddedEntries(list[..i]);
    assert IdsOf(before + [list[i]]) == IdsOf(before) + [list[i].id];
  }

  /** The ids of the added entries of a list, collected front to back the
      way `getSelectedIDs` walks the list. */
  function ScannedIds(list: seq<Entry>): seq<string>
  {
    if list == [] then []
    else
      var last := list[|list| - 1];
      ScannedIds(list[..|list| - 1]) + (if last.added then [last.id] else [])
  }

  /** The scan collects exactly the ids of the added entries. */
  lemma {:induction false} ScannedIdsAreAddedIds(list: seq<Entry>)
    ensures ScannedIds(list) == IdsOf(AddedEntries(list))
  {
    if list != [] {
      var n := |list| - 1;
      ScannedIdsAreAddedIds(list[..n]);
      IdsStep(list, n);
      assert list[..n + 1] == list;
    }
  }

  /** `getSelectedIDs`: the ids, as text, of the added entries of the
      selected list, in list order. */
  method GetSelectedIds(w: Widget) returns (ids: seq<string>)
    ensures |ids| == CountAdded(w.selected)
    ensures forall k :: 0 <= k < |ids| ==> ids[k] == AddedEntries(w.selected)[k].id
  {
    ids := [];
    var i := 0;
    while i < |w.selected|
      invariant 0 <= i <= |w.selected|
      invariant ids == ScannedIds(w.selected[..i])
    {
      assert w.selected[..i + 1][..i] == w.selected[..i];
      if w.selected[i].added {
        ids := ids + [w.selected[i].id];
      }
      i := i + 1;
    }
    assert w.selected[..i] == w.selected;
    ScannedIdsAreAddedIds(w.selected);
  }

  /** `searchItems(query)`: an available entry is filtered out exactly when
      its lower-cased name does not contain the lower-cased query. */
  function SearchItems(w: Widget, query: string): (r: Widget)
    ensures r.selected == w.selected && r.selectedCount == w.selectedCount
    ensures |r.available| == |w.available|
    ensures forall i :: 0 <= i < |w.available| ==>
      r.available[i] == w.available[i].(filteredOut := !Contains(Lower(w.available[i].name), Lower(query)))
  {
    var compare := Lower(query);
    var available := seq(|w.available|, i requires 0 <= i < |w.available| =>
      var e := w.available[i];
      IndexOfFindsSubstring(Lower(e.name), compare);
      e.(filteredOut := !(IndexOf(Lower(e.name), compare) >= 0)));
    w.(available := available)
  }

  /** An empty query filters nothing out, and no search changes what is added. */
  lemma EmptySearchShowsAll(w: Widget)
    ensures forall i :: 0 <= i < |w.available| ==> !SearchItems(w, "").available[i].filteredOut
    ensures forall i :: 0 <= i < |w.available| ==> SearchItems(w, "").available[i].added == w.available[i].added
  {
    forall i | 0 <= i < |w.available| ensures Contains(Lower(w.available[i].name), Lower("")) {
      EmptyIsContained(Lower(w.available[i].name));
    }
  }

  /** The displayed count stays in agreement through every user action. */
  lemma CountShownIsKept(w: Widget, from: ListName, id: string, query: string)
    requires CountShown(w)
    ensures CountShown(ToggleAdd(w, from, id))
    ensures CountShown(AddAll(w)) && CountShown(RemoveAll(w))
    ensures CountShown(SearchItems(w, query))
  {
  }

  /** `getSelectedIDs` returns as many ids as the widget displays. */
  method SelectedIdsMatchCount(w: Widget) returns (ids: seq<string>)
    requires CountShown(w)
    ensures |ids| == w.selectedCount
  {
    ids := GetSelectedIds(w);
  }
}

=== FILE: visualization_dialog.dfy ===
/**
 The decisions of the chart dialog: the character whitelist applied to
 chart file names, the file name a chart is saved under, the choice
 between drawing a chart and showing the empty-data warning, the context
 the dialog's template receives, and where a chart is saved as a workfile.
 */
module Visualization {
  import opened Common

  // ------------------------------------------------------------ file names

  /** The characters `/[^A-Z0-9_\-.]/gi` does not remove: ASCII letters of
      either case, digits, `_`, `-` and `.`. */
  predicate AllowedInFileName(c: char)
  {
    'A' <= c <= 'Z' || 'a' <= c <= 'z' || '0' <= c <= '9' || c == '_' || c == '-' || c == '.'
  }

  /** `sanitizeFilename`: every character outside the whitelist removed. */
  function SanitizeFilename(fileName: string): (r: string)
    ensures |r| <= |fileName|
    ensures forall i :: 0 <= i < |r| ==> AllowedInFileName(r[i])
    ensures forall c :: multiset(r)[c] == if AllowedInFileName(c) then multiset(fileName)[c] else 0
  {
    Filter(fileName, AllowedInFileName)
  }

  /** What is kept stays in its original order. */
  lemma SanitizeKeepsOrder(fileName: string)
    ensures IsSubsequence(SanitizeFilename(fileName), fileName)
  {
    FilterIsSubsequence(fileName, AllowedInFileName);
  }

  /** A name made only of allowed characters is left as it is. */
  lemma SanitizeKeepsCleanName(fileName: string)
    requires forall i :: 0 <= i < |fileName| ==> AllowedInFileName(fileName[i])
    ensures SanitizeFilename(fileName) == fileName
  {
    FilterKeepsAll(fileName, AllowedInFileName);
  }

  /** Sanitising twice is sanitising once. */
  lemma SanitizeIdempotent(fileName: string)
    ensures SanitizeFilename(SanitizeFilename(fileName)) == SanitizeFilename(fileName)
  {
    FilterIdempotent(fileName, AllowedInFileName);
  }

  /** Sanitising works piece by piece. */
  lemma SanitizeConcat(a: string, b: string)
    ensures SanitizeFilename(a + b) == SanitizeFilename(a) + SanitizeFilename(b)
  {
    FilterConcat(a, b, AllowedInFileName);
  }

  /** The file name `saveWorkfile` gives a chart of name `name` and type
      `chartType`. */
  function ChartFileName(name: string, chartType: string): (r: string)
    ensures |r| >= 4 && r[|r| - 4..] == ".png"
    ensures forall i :: 0 <= i < |r| ==> AllowedInFileName(r[i])
  {
    var stem := SanitizeFilename(name + "-" + chartType);
    assert forall i :: |stem| <= i < |stem| + 4 ==> (stem + ".png")[i] == ".png"[i - |stem|];
    stem + ".png"
  }

  /** The dash between name and type survives sanitising, and the two sides
      are sanitised separately. */
  lemma SanitizeAroundDash(name: string, chartType: string)
    ensures SanitizeFilename(name + "-" + chartType)
      == SanitizeFilename(name) + ("-" + SanitizeFilename(chartType))
  {
    var tail := "-" + chartType;
    assert name + "-" + chartType == name + tail;
    SanitizeConcat(name, tail);
    SanitizeKeepsLeadingDash(chartType);
  }

  /** A leading dash survives sanitising. */
  lemma SanitizeKeepsLeadingDash(chartType: string)
    ensures SanitizeFilename("-" + chartType) == "-" + SanitizeFilename(chartType)
  {
    SanitizeConcat("-", chartType);
    SanitizeKeepsCleanName("-");
  }

  /** The name and the type are sanitised separately and stay apart: the
      dash between them survives. */
  lemma ChartFileNameParts(name: string, chartType: string)
    ensures ChartFileName(name, chartType)
      == SanitizeFilename(name) + "-" + SanitizeFilename(chartType) + ".png"
  {
    SanitizeAroundDash(name, chartType);
    var a, b := SanitizeFilename(name), SanitizeFilename(chartType);
    assert a + ("-" + b) == a + "-" + b;
  }

  // ---------------------------------------------------------------- charts

  /** A row of the query result the chart is drawn from. */
  type Row = map<string, JsValue>

  /** `isValidData`: the task's rows are present and non-empty. */
  predicate IsValidData(rows: Option<seq<Row>>)
    ensures rows.None? || rows == Some([]) ==> !IsValidData(rows)
    ensures rows.Some? && |rows.value| > 0 ==> IsValidData(rows)
  {
    rows.Some? && |rows.value| > 0
  }

  /** What the dialog's chart area shows. */
  datatype ChartArea = Unset | ChartView | EmptyDataWarning

  /** The dialog state the rules read and write. `filterCount` is absent
      when the dialog was opened without filters. */
  datatype Dialog = Dialog(chartType: string, filterCount: Option<nat>, hasChartView: bool, chartArea: ChartArea)

  /** `drawChart`: a chart over valid data, the warning otherwise. A chart
      built earlier is kept. */
  function DrawChart(d: Dialog, rows: Option<seq<Row>>): (r: Dialog)
    ensures r.chartArea == ChartView <==> IsValidData(rows)
    ensures r.chartArea == EmptyDataWarning <==> !IsValidData(rows)
    ensures r.hasChartView <==> d.hasChartView || IsValidData(rows)
    ensures r.chartType == d.chartType && r.filterCount == d.filterCount
  {
    if IsValidData(rows) then d.(hasChartView := true, chartArea := ChartView)
    else d.(chartArea := EmptyDataWarning)
  }

  /** The context `additionalContext` hands the template. */
  datatype Context = Context(filterCount: nat, chartTypeKey: string, hasChart: bool)

  function AdditionalContext(d: Dialog): (c: Context)
    ensures d.filterCount.None? ==> c.filterCount == 0
    ensures d.filterCount.Some? ==> c.filterCount == d.filterCount.value
    ensures c.hasChart <==> d.hasChartView
    ensures c.chartTypeKey == "dataset.visualization.names." + d.chartType
  {
    Context(if d.filterCount.Some? then d.filterCount.value else 0,
            "dataset.visualization.names." + d.chartType,
            d.hasChartView)
  }

  /** A dialog that has drawn no chart reports one after drawing valid data
      and none after drawing empty data. */
  lemma DrawnChartIsReported(d: Dialog, rows: Option<seq<Row>>)
    requires !d.hasChartView
    ensures AdditionalContext(DrawChart(d, rows)).hasChart <==> IsValidData(rows)
  {
  }

  // ----------------------------------------------------- saving a workfile

  datatype Task = Task(workspaceId: JsValue, rows: Option<seq<Row>>)

  datatype Workspace = Workspace(id: JsValue)

  /** The workfile `saveWorkfile` creates; the chart's SVG is left out. */
  datatype WorkfileRequest = WorkfileRequest(workspaceId: JsValue, source: string, fileName: string)

  /** `saveWorkfile(workspace)`: into the picked workspace if one is given,
      into the task's workspace otherwise. */
  function SaveWorkfile(picked: Option<Workspace>, task: Task, name: string, chartType: string): (w: WorkfileRequest)
    ensures picked.Some? ==> w.workspaceId == picked.value.id
    ensures picked.None? ==> w.workspaceId == task.workspaceId
    ensures w.source == "visualization"
    ensures w.fileName == ChartFileName(name, chartType)
  {
    WorkfileRequest(if picked.Some? then picked.value.id else task.workspaceId,
                    "visualization", ChartFileName(name, chartType))
  }

  /** What choosing "save as workfile" does. */
  datatype SaveStep = OpenWorkspacePicker | Save(request: WorkfileRequest)

  /** `saveAsWorkfile`: a task without a workspace asks for one first. */
  function SaveAsWorkfile(task: Task, name: string, chartType: string): (s: SaveStep)
    ensures s.OpenWorkspacePicker? <==> !Truthy(task.workspaceId)
    ensures s.Save? ==> s.request.workspaceId == task.workspaceId
    ensures s.Save? ==> s.request.fileName == ChartFileName(name, chartType)
  {
    if !Truthy(task.workspaceId) then OpenWorkspacePicker
    else Save(SaveWorkfile(None, task, name, chartType))
  }

  /** The picker's "workspace:selected" event saves into the chosen workspace. */
  function OnWorkspaceSelected(ws: Workspace, task: Task, name: string, chartType: string): (w: WorkfileRequest)
    ensures w.workspaceId == ws.id
    ensures w.fileName == ChartFileName(name, chartType)
  {
    SaveWorkfile(Some(ws), task, name, chartType)
  }
}

=== FILE: workfiles.dfy ===
/**
 The listing and creation helpers of the workfiles controller: the order
 clause chosen for a listing, the ordered and optionally type-filtered
 listing itself, and the rewriting of creation parameters for an "empty"
 workfile.
 */
module Workfiles {
  import opened Common

  /** The fields of a workfile that the listing reads. */
  datatype Workfile = Workfile(id: nat, fileName: string, fileType: string, updatedAt: int)

  // ------------------------------------------------------------ sort order

  /** `workfile_sort(column_name)`: the SQL order clause. */
  function WorkfileSort(column: Option<string>): (r: string)
    ensures r == "lower(file_name)" || r == "updated_at"
    ensures r == "lower(file_name)" <==>
      (column.None? || Blank(column.value) || column.value == "file_name")
  {
    match column
    case None => "lower(file_name)"
    case Some(c) => if Blank(c) || c == "file_name" then "lower(file_name)" else "updated_at"
  }

  /** A column of whitespace only (Unicode spaces included) sorts exactly as
      a missing one, and so does "file_name"; any other column sorts by
      update time. */
  lemma BlankColumnSortsByName(column: string)
    ensures WorkfileSort(Some(column)) == WorkfileSort(None) <==> Blank(column) || column == "file_name"
    ensures WorkfileSort(Some(column)) != WorkfileSort(None) ==> WorkfileSort(Some(column)) == "updated_at"
  {
  }

  /** Lexicographic order of strings by code point. */
  predicate StrLe(a: string, b: string)
    decreases |a|
  {
    if a == [] then true
    else if b == [] then false
    else if a[0] != b[0] then a[0] < b[0]
    else StrLe(a[1..], b[1..])
  }

  lemma {:induction false} StrLeTotal(a: string, b: string)
    ensures StrLe(a, b) || StrLe(b, a)
    decreases |a|
  {
    if a != [] && b != [] && a[0] == b[0] {
      StrLeTotal(a[1..], b[1..]);
    }
  }

  lemma {:induction false} StrLeTransitive(a: string, b: string, c: string)
    requires StrLe(a, b) && StrLe(b, c)
    ensures StrLe(a, c)
    decreases |a|
  {
    if a != [] && b != [] && c != [] && a[0] == b[0] && b[0] == c[0] {
      StrLeTransitive(a[1..], b[1..], c[1..]);
    }
  }

  /** `x` may come before `y` under the order clause. */
  predicate OrderedBy(clause: string, x: Workfile, y: Workfile)
  {
    if clause == "lower(file_name)" then StrLe(Lower(x.fileName), Lower(y.fileName))
    else x.updatedAt <= y.updatedAt
  }

  lemma OrderedByTotal(clause: string, x: Workfile, y: Workfile)
    ensures OrderedBy(clause, x, y) || OrderedBy(clause, y, x)
  {
    if clause == "lower(file_name)" {
      StrLeTotal(Lower(x.fileName), Lower(y.fileName));
    }
  }

  lemma OrderedByTransitive(clause: string, x: Workfile, y: Workfile, z: Workfile)
    requires OrderedBy(clause, x, y) && OrderedBy(clause, y, z)
    ensures OrderedBy(clause, x, z)
  {
    if clause == "lower(file_name)" {
      StrLeTransitive(Lower(x.fileName), Lower(y.fileName), Lower(z.fileName));
    }
  }

  predicate Sorted(clause: string, s: seq<Workfile>)
  {
    forall i, j :: 0 <= i < j < |s| ==> OrderedBy(clause, s[i], s[j])
  }

  /** An element that may precede every element of a sorted listing may
      head it. */
  lemma ConsSorted(clause: string, y: Workfile, rest: seq<Workfile>)
    requires Sorted(clause, rest)
    requires forall z :: z in rest ==> OrderedBy(clause, y, z)
    ensures Sorted(clause, [y] + rest)
  {
    forall i, j | 0 <= i < j < |[y] + rest| ensures OrderedBy(clause, ([y] + rest)[i], ([y] + rest)[j]) {
      if i > 0 {
        assert ([y] + rest)[i] == rest[i - 1] && ([y] + rest)[j] == rest[j - 1];
      } else {
        assert ([y] + rest)[j] in rest;
      }
    }
  }

  /** What may precede the head of a sorted listing may precede all of it. */
  lemma PrecedesHead(clause: string, x: Workfile, s: seq<Workfile>)
    requires Sorted(clause, s) && s != [] && OrderedBy(clause, x, s[0])
    ensures forall z :: z in s ==> OrderedBy(clause, x, z)
  {
    forall z | z in s ensures OrderedBy(clause, x, z) {
      var j :| 0 <= j < |s| && s[j] == z;
      if j > 0 {
        OrderedByTransitive(clause, x, s[0], z);
      }
    }
  }

  /** The head of a sorted listing may precede its tail with one more
      element it may precede. */
  lemma HeadPrecedesInserted(clause: string, x: Workfile, s: seq<Workfile>, rest: seq<Workfile>)
    requires Sorted(clause, s) && s != [] && OrderedBy(clause, s[0], x)
    requires multiset(rest) == multiset(s[1..]) + multiset{x}
    ensures forall z :: z in rest ==> OrderedBy(clause, s[0], z)
  {
    forall z | z in rest ensures OrderedBy(clause, s[0], z) {
      assert z in multiset(rest);
      if z != x {
        assert z in multiset(s[1..]);
        var j :| 0 <= j < |s[1..]| && s[1..][j] == z;
        assert s[j + 1] == z;
      }
    }
  }

  /** Inserts `x` in front of the first element it may precede. */
  function Insert(clause: string, x: Workfile, s: seq<Workfile>): (r: seq<Workfile>)
    requires Sorted(clause, s)
    ensures multiset(r) == multiset(s) + multiset{x}
    ensures Sorted(clause, r)
  {
    if s == [] then [x]
    else if OrderedBy(clause, x, s[0]) then
      PrecedesHead(clause, x, s);
      ConsSorted(clause, x, s);
      [x] + s
    else
      OrderedByTotal(clause, x, s[0]);
      assert s == [s[0]] + s[1..];
      var rest := Insert(clause, x, s[1..]);
      HeadPrecedesInserted(clause, x, s, rest);
      ConsSorted(clause, s[0], rest);
      [s[0]] + rest
  }

  /** The order the database returns rows in for an order clause. Rows
      that tie may come in any order; insertion sort is one of them. */
  function Sort(clause: string, s: seq<Workfile>): (r: seq<Workfile>)
    ensures multiset(r) == multiset(s)
    ensures Sorted(clause, r)
  {
    if s == [] then []
    else
      assert s == [s[0]] + s[1..];
      Insert(clause, s[0], Sort(clause, s[1..]))
  }

  /** Keeping part of a sorted listing leaves it sorted. */
  lemma {:induction false} FilterKeepsSorted(clause: string, s: seq<Workfile>, p: Workfile -> bool)
    requires Sorted(clause, s)
    ensures Sorted(clause, Filter(s, p))
  {
    if s != [] {
      assert Sorted(clause, s[1..]);
      FilterKeepsSorted(clause, s[1..], p);
      var rest := Filter(s[1..], p);
      if p(s[0]) {
        forall z | z in rest ensures OrderedBy(clause, s[0], z) {
          var j :| 0 <= j < |s[1..]| && s[1..][j] == z;
          assert s[j + 1] == z;
        }
        ConsSorted(clause, s[0], rest);
      }
    }
  }

  /** `Workfile.by_type(file_type)`, taken as equality on the file type. */
  function ByType(s: seq<Workfile>, fileType: string): (r: seq<Workfile>)
    ensures forall w :: multiset(r)[w] == if w.fileType == fileType then multiset(s)[w] else 0
  {
    Filter(s, (w: Workfile) => w.fileType == fileType)
  }

  /** The workfiles `index` lists: ordered by `order`, narrowed by type
      only when a `file_type` parameter is present. */
  function Index(workfiles: seq<Workfile>, order: Option<string>, fileType: Option<string>): (r: seq<Workfile>)
    ensures Sorted(WorkfileSort(order), r)
    ensures fileType.None? ==> multiset(r) == multiset(workfiles)
    ensures fileType.Some? ==>
      forall w :: multiset(r)[w] == if w.fileType == fileType.value then multiset(workfiles)[w] else 0
  {
    var sorted := Sort(WorkfileSort(order), workfiles);
    match fileType
    case None => sorted
    case Some(t) =>
      FilterKeepsSorted(WorkfileSort(order), sorted, (w: Workfile) => w.fileType == t);
      ByType(sorted, t)
  }

  // ------------------------------------------------- creation parameters

  /** A request parameter value. An uploaded file carries the `file_name`
      parameter it was created from (or none) and empty contents. */
  datatype Param =
    | Text(s: string)
    | Hash(fields: map<string, Param>)
    | List(items: seq<Param>)
    | UploadedFile(fileName: Option<Param>)

  /** Why `workfile_attributes` raises: `params[:workfile]` is missing (nil)
      or not a hash, so reading its `[:source]` fails; or the source is
      "empty" and the `file_name` cannot name the uploaded file. */
  datatype Error = UnreadableWorkfileParams | UnusableFileName

  function Lookup(m: map<string, Param>, key: string): Option<Param>
  {
    if key in m then Some(m[key]) else None
  }

  /** The `file_name` values `create_sql_file` turns into an uploaded file:
      a string that can be a file name in the temporary directory. `nil`
      and hashes make `Tempfile.new` raise. An array gets past it but not
      the uploaded file, which re-encodes its name as a string. A NUL byte
      makes opening the file raise, and a `/` names a subdirectory of the
      temporary directory, which does not exist. */
  predicate UsableFileName(name: Option<Param>)
  {
    match name
    case Some(Text(s)) => Lacks(s, '\0') && Lacks(s, '/')
    case _ => false
  }

  /** The `versions_attributes` an "empty" workfile is created with. */
  function EmptyVersions(w: map<string, Param>): Param
  {
    List([Hash(map["contents" := UploadedFile(Lookup(w, "file_name"))])])
  }

  /** `workfile_attributes`: the `workfile` parameters, given exactly one
      empty version when the source is "empty". */
  function WorkfileAttributes(params: map<string, Param>): (r: Result<map<string, Param>, Error>)
    ensures r.Err? <==>
      || "workfile" !in params
      || !params["workfile"].Hash?
      || (Lookup(params["workfile"].fields, "source") == Some(Text("empty"))
          && !UsableFileName(Lookup(params["workfile"].fields, "file_name")))
    ensures r.Err? ==>
      (r.error == UnreadableWorkfileParams <==> "workfile" !in params || !params["workfile"].Hash?)
    ensures r.Ok? && Lookup(params["workfile"].fields, "source") != Some(Text("empty")) ==>
      r.value == params["workfile"].fields
    ensures r.Ok? && Lookup(params["workfile"].fields, "source") == Some(Text("empty")) ==>
      var w := params["workfile"].fields;
      && r.value.Keys == w.Keys + {"versions_attributes"}
      && (forall k :: k in w && k != "versions_attributes" ==> r.value[k] == w[k])
      && r.value["versions_attributes"].List?
      && |r.value["versions_attributes"].items| == 1
      && r.value["versions_attributes"].items[0]
         == Hash(map["contents" := UploadedFile(Lookup(w, "file_name"))])
  {
    if "workfile" !in params || !params["workfile"].Hash? then Err(UnreadableWorkfileParams)
    else
      var w := params["workfile"].fields;
      if Lookup(w, "source") == Some(Text("empty")) then
        if UsableFileName(Lookup(w, "file_name")) then Ok(w["versions_attributes" := EmptyVersions(w)])
        else Err(UnusableFileName)
      else Ok(w)
  }

  /** An "empty" workfile is created exactly when its `file_name` is a
      string free of NUL and `/`: a missing name, an array of names and a
      path all fail. */
  lemma EmptyWorkfileNeedsName(name: string, names: seq<Param>)
    ensures WorkfileAttributes(map["workfile" := Hash(map["source" := Text("empty")])])
      == Err(UnusableFileName)
    ensures var w := map["source" := Text("empty"), "file_name" := List(names)];
      WorkfileAttributes(map["workfile" := Hash(w)]) == Err(UnusableFileName)
    ensures var w := map["source" := Text("empty"), "file_name" := Text(name)];
      WorkfileAttributes(map["workfile" := Hash(w)]).Ok? <==> Lacks(name, '\0') && Lacks(name, '/')
  {
  }
}
